=== FILE: README.md ===
# Action filters and pattern-matching decisions, in Dafny

This project models two parts of the repository.

**The four MVC action filters of `ActionFiltersExample` and the bindings of
`UserController`.** Each filter hook is a pure state-transition function over
an explicit clock reading:

- `CacheFilter`: the static five-minute cache.
- `ValidationFilter`: rejects negative `int` and blank `string` arguments with a BadRequest.
- `PerformanceFilter`: a stopwatch in a single instance field, with a warning above one second.
- `LoggingFilter`: informational entries before and after the action.

Shared pieces:

- `Mvc` holds the slice of the framework the filters see: bound arguments, action results, the context and leveled log entries.
- `Text` holds the renderings the filters write: decimal integers, `string.Join`, the `HH:mm:ss(.fff)` clock formats and `char.IsWhiteSpace`.
- `Pipeline` runs a list of filters around one action. It follows the synchronous action-filter invoker of ASP.NET Core MVC:
  - pre-hooks run in binding order;
  - a pre-hook that sets `Result` short-circuits the call;
  - the post-hooks of the filters that let the call through run in reverse order.
- `UserController` fixes the filter lists of its actions and proves what they add up to. The controller-wide Logging filter runs outermost, then the action's filters in declaration order.

**The decision functions of `PatternMatchingDemo`** (`PatternMatching`). Each
switch expression is a first-match-wins case split. Every one carries its
partition as an if-and-only-if contract, except `AnalyzeNumbers`. Its
partition is stated by `ArraysNeverReachLastArm` and `LongerReportsReadBack`.
The second reads the named elements back out of the two-element and the longer
reports, in order. Each function has a lemma relating calls to each other or to an
independent reference definition.

Three readings of the code matter for the pattern-matching functions:

- **Enums hold any value of their underlying `int`.** A C# enum can hold any `int`, so `DayOfWeek` and `WeatherType` are modelled by that `int`. The `_` arms of `GetDayType` and `GetActivitySuggestion` are reached by the undefined values.
- **Property and list patterns never match `null`.** The `_` arms of `ClassifyPerson` and `AnalyzeNumbers` are therefore reached by a `null` argument (modelled as `None`), and by nothing else.
- **C# compares strings by value, and `null == null` holds.** Two `null` players in rock-paper-scissors are a draw.

## Model

| member | source | states |
|---|---|---|
| Text.IntToStringRoundTrip | ActionFiltersExample/Filters/PerformanceActionFilter.cs:31 | the decimal text interpolation writes for an integer reads back as that integer |
| Text.FormatTimeReadsBack | ActionFiltersExample/Filters/CacheActionFilter.cs:44 | the `HH:mm:ss` text holds the hour, minute and second of the clock reading in two-digit fields separated by ':' |
| Text.FormatTimeMillisReadsBack | ActionFiltersExample/Filters/LoggingActionFilter.cs:22 | `HH:mm:ss.fff` is the `HH:mm:ss` text, a '.', and the milliseconds in three digits |
| Text.IsBlank | ActionFiltersExample/Filters/ValidationActionFilter.cs:29 | a non-null string is blank exactly when every character is white space (the empty string included) |
| Mvc.ValueText | ActionFiltersExample/Filters/CacheActionFilter.cs:52 | an interpolated boxed `int` reads back as that `int`, a string renders as itself, `null` as nothing |
| Mvc.Pairs | ActionFiltersExample/Filters/LoggingActionFilter.cs:23 | one `name` + separator + value text per argument, in argument order |
| CacheFilter.ExecutedKey | ActionFiltersExample/Filters/CacheActionFilter.cs:57-63 | the post-hook key is the controller, '_', and the action, read back in that order; no argument contributes to it |
| CacheFilter.ExecutingKey | ActionFiltersExample/Filters/CacheActionFilter.cs:48-55 | the pre-hook key starts with the post-hook key of the same action, then '_', so it is strictly longer and never equal to it |
| CacheFilter.OnActionExecuting | ActionFiltersExample/Filters/CacheActionFilter.cs:16-34 | absent key: store, context and log untouched; fresh entry: Ok result carrying exactly the stored value, store untouched; stale entry: exactly that key removed, other entries kept, no result set |
| CacheFilter.OnActionExecuted | ActionFiltersExample/Filters/CacheActionFilter.cs:36-46 | stores only an Ok result, under controller and action alone, expiring five minutes after `now`, replacing any previous entry, leaving other keys alone |
| CacheFilter.OnActionExecutedCorrected | ActionFiltersExample/Filters/CacheActionFilter.cs:36-46 | the same post-hook writing under the key the pre-hook reads |
| CacheFilter.HooksKeepWithinTtl | ActionFiltersExample/Filters/CacheActionFilter.cs:41 | no entry ever expires more than five minutes after the clock: kept by time passing and by every hook |
| CacheFilter.WritesMissExecutingKey | ActionFiltersExample/Filters/CacheActionFilter.cs:54-62 | as written, any number of post-hook writes for a controller and action leave the entry under that action's pre-hook key exactly as it was, present or absent |
| CacheFilter.WriteInvisibleToSameAction | ActionFiltersExample/Filters/CacheActionFilter.cs:16-63 | as written, after any number of post-hook writes for a controller and action, the pre-hook of that controller and action answers as if nothing had been stored, whatever arguments and clock |
| CacheFilter.CorrectedRoundTrip | ActionFiltersExample/Filters/CacheActionFilter.cs:20-43 | with matching keys, a stored Ok value is served back before `now + 5 min` and evicted from then on |
| CacheFilter.ExecutingKeyGrows | ActionFiltersExample/Filters/CacheActionFilter.cs:48-55 | with no arguments the pre-hook key is the post-hook key and a trailing '_'; each further argument appends '_', its name, '_' and its value text, in binding order |
| CacheFilter.IntArgumentKeys | ActionFiltersExample/Filters/CacheActionFilter.cs:48-55 | the pre-hook key depends on the arguments: for one `int` argument the number reads back from the end of the key, and two calls share a key exactly when they pass the same number |
| CacheFilter.KeysCollide | ActionFiltersExample/Filters/CacheActionFilter.cs:52-54 | the key is not injective: two different argument lists with distinct names give the same key |
| ValidationFilter.Complaint | ActionFiltersExample/Filters/ValidationActionFilter.cs:19-33 | an argument yields a message exactly when it is a negative `int` or a blank non-null `string`, and which message |
| ValidationFilter.ErrorsAppend | ActionFiltersExample/Filters/ValidationActionFilter.cs:14-34 | messages follow argument order: the list over a concatenation is the concatenation of the lists |
| ValidationFilter.ErrorsEmptyIff | ActionFiltersExample/Filters/ValidationActionFilter.cs:17-37 | the list is empty exactly when no argument violates a rule |
| ValidationFilter.ErrorsSound | ActionFiltersExample/Filters/ValidationActionFilter.cs:17-34 | every message is the complaint of some violating argument |
| ValidationFilter.ErrorsComplete | ActionFiltersExample/Filters/ValidationActionFilter.cs:17-34 | every violating argument's message is in the list |
| ValidationFilter.CollectErrors | ActionFiltersExample/Filters/ValidationActionFilter.cs:14-34 | the `foreach` loop builds exactly the reference list |
| ValidationFilter.OnActionExecuting | ActionFiltersExample/Filters/ValidationActionFilter.cs:8-45 | some violation: BadRequest with "Błędy walidacji" and the full list; no violation (empty arguments included): context unchanged |
| ValidationFilter.OnActionExecuted | ActionFiltersExample/Filters/ValidationActionFilter.cs:47-50 | the post-hook leaves the context as it found it |
| ValidationFilter.TwoViolationsTwoMessages | ActionFiltersExample/Filters/ValidationActionFilter.cs:17-44 | `{ id: -1, name: "" }` is rejected with the negative-`id` message then the blank-`name` message |
| PerformanceFilter.OnActionExecuting | ActionFiltersExample/Filters/PerformanceActionFilter.cs:16-20 | always a fresh running stopwatch started now, one information entry, nothing measured |
| PerformanceFilter.OnActionExecuted | ActionFiltersExample/Filters/PerformanceActionFilter.cs:22-38 | no stopwatch: nothing; otherwise stopped, elapsed measured from its start, one information entry, plus the slow warning exactly when elapsed exceeds 1000 ms |
| PerformanceFilter.ReportsTimeSinceStart | ActionFiltersExample/Filters/PerformanceActionFilter.cs:18-31 | a start at `t0` then the post-hook at `t1` reports `t1 - t0`, and the entry's number reads back as `t1 - t0` |
| PerformanceFilter.WarnsIffSlow | ActionFiltersExample/Filters/PerformanceActionFilter.cs:33-36 | a warning appears exactly when `t1 - t0 > 1000` (exactly 1000 ms gives none) |
| PerformanceFilter.RestartForgetsEarlierStart | ActionFiltersExample/Filters/PerformanceActionFilter.cs:9-18 | the single field keeps only the latest start |
| PerformanceFilter.StoppedStopwatchStaysStopped | ActionFiltersExample/Filters/PerformanceActionFilter.cs:24-28 | a second post-hook on a stopped stopwatch reports the same elapsed time |
| LoggingFilter.ParameterLineGrows | ActionFiltersExample/Filters/LoggingActionFilter.cs:23 | empty arguments give an empty line; one argument gives `key=value`; each further argument adds `, key=value` at the end |
| LoggingFilter.Status | ActionFiltersExample/Filters/LoggingActionFilter.cs:35 | "BŁĄD" exactly when an exception is present, "SUKCES" exactly when none is |
| LoggingFilter.OnActionExecuting | ActionFiltersExample/Filters/LoggingActionFilter.cs:14-24 | five information entries in order: the "=== WYKONYWANIE AKCJI ===" header, "Controller: " and "Action: " with the route values, "Czas: " with the `HH:mm:ss.fff` clock text, and the parameter line |
| LoggingFilter.OnActionExecuted | ActionFiltersExample/Filters/LoggingActionFilter.cs:26-37 | six information entries in order: the "=== ZAKOŃCZENIE AKCJI ===" header, "Controller: " and "Action: " with the route values, "Czas: " with the `HH:mm:ss.fff` clock text, "Status: BŁĄD" exactly when an exception is present and "Status: SUKCES" exactly when none is, and an empty line |
| Pipeline.RunBefore | ActionFiltersExample/Filters/CacheActionFilter.cs:16-34 | a pre-hook sets at most the result; Logging and Performance never set it; each filter changes only its own state; the log only grows |
| Pipeline.RunAfter | ActionFiltersExample/Filters/CacheActionFilter.cs:36-46 | no post-hook changes the context; each filter changes only its own state; the log only grows |
| Pipeline.Invoke | ActionFiltersExample/Controllers/UserController.cs:8-21 | a call that reaches the action passed every filter and finishes `duration` after the start; a short-circuited call ends at the start time with a result set; a first pre-hook that sets a result stops the call there with that pre-hook's context; route values and arguments never change |
| Pipeline.InvokeStopsAtFirstStop | ActionFiltersExample/Controllers/UserController.cs:8-21 | the action runs exactly when no pre-hook, run alone in binding order, sets a result; otherwise the call stops at the first pre-hook that does, whatever its position |
| Pipeline.InvokeCons | ActionFiltersExample/Controllers/UserController.cs:8-21 | one step of the runner: the first pre-hook either short-circuits with its own context and trace, or the rest of the run is wrapped in the first filter's post-hook |
| Pipeline.OnlyObserversNeverStopTheCall | ActionFiltersExample/Filters/LoggingActionFilter.cs:14-24 | a call that starts without a result and meets only Logging and Performance filters always reaches the action |
| Pipeline.InvokeTrace | ActionFiltersExample/Controllers/UserController.cs:8-21 | hooks run last-in first-out: all pre-hooks, the action, the post-hooks in reverse; when short-circuited, the post-hook of the short-circuiting filter is skipped |
| Pipeline.InvokeContext | ActionFiltersExample/Controllers/UserController.cs:18-36 | a call that reaches the action ends with exactly what the action left; a short-circuited call keeps its exception slot |
| Pipeline.InvokeAppendsToLog | ActionFiltersExample/Filters/LoggingActionFilter.cs:19-36 | filters only append to the log: what was written before the call stays, in order |
| UserController.InvalidArgumentsRejected | ActionFiltersExample/Controllers/UserController.cs:38-41 | a violating argument ends a validated action with the BadRequest and all messages; the action and Performance never run; only Logging's post-hook runs |
| UserController.ValidArgumentsReachAction | ActionFiltersExample/Controllers/UserController.cs:38-51 | arguments without violations reach the action, whose result or exception is what the call returns |
| UserController.GetUsersMissesCache | ActionFiltersExample/Controllers/UserController.cs:18-21 | as written, a `GetUsers` call whose key is absent runs the action and leaves that key absent |
| UserController.GetUsersNeverServedFromCache | ActionFiltersExample/Controllers/UserController.cs:18-35 | as written, in any sequence of `GetUsers` calls the action runs every time |
| UserController.CorrectedGetUsersMiss | ActionFiltersExample/Controllers/UserController.cs:18-35 | with the corrected key, a call without a fresh entry runs the action and stores its Ok value until five minutes after it finished |
| UserController.CorrectedGetUsersHit | ActionFiltersExample/Controllers/UserController.cs:18-21 | with the corrected key, a fresh entry answers the call without running the action, store unchanged |
| UserController.CorrectedGetUsersScenario | ActionFiltersExample/Controllers/UserController.cs:18-21 | with the corrected key: cold call runs the action, a call within five minutes is served from the cache, a call 301 s later runs it again |
| UserController.SlowOperationWarnsIffSlow | ActionFiltersExample/Controllers/UserController.cs:96-105 | `SlowOperation` logs a warning exactly when the action took more than one second, whether it returned or threw |
| PatternMatching.GetDayType | SimpleGoodPatterns/PattternMatchingExample/PatternMatchingDemo.cs:20-26 | Monday to Friday exactly are working days, Saturday and Sunday exactly the weekend, exactly the undefined values unknown |
| PatternMatching.WeekHasFiveWorkingDays | SimpleGoodPatterns/PattternMatchingExample/PatternMatchingDemo.cs:20-26 | the defined days with a working-day type are exactly Monday to Friday, and no defined day is unknown |
| PatternMatching.ClassifyPerson | SimpleGoodPatterns/PattternMatchingExample/PatternMatchingDemo.cs:38-45 | `null` exactly is unclassified; a person is a child under 18, a Warsaw adult or an adult from 18 to 64 depending on the city, a senior from 65 |
| PatternMatching.ClassificationNeedsOnlyAgeAndCity | SimpleGoodPatterns/PattternMatchingExample/PatternMatchingDemo.cs:38-45 | the name never matters; two people of one age differ exactly when they are 18 to 64 and only one lives in Warsaw |
| PatternMatching.GetActivitySuggestion | SimpleGoodPatterns/PattternMatchingExample/PatternMatchingDemo.cs:47-57 | sunny splits above 25 and above 15, cloudy above 20, rain and snow ignore the temperature, exactly the undefined values get the forecast hint |
| PatternMatching.SuggestionFollowsBand | SimpleGoodPatterns/PattternMatchingExample/PatternMatchingDemo.cs:47-57 | two temperatures get the same suggestion exactly when they fall in the same band of an independent band function |
| PatternMatching.GetRockPaperScissorsResult | SimpleGoodPatterns/PattternMatchingExample/PatternMatchingDemo.cs:60-66 | player 1 wins exactly when its move is one step ahead on the rock-paper-scissors cycle, player 2 symmetrically, equal inputs (invalid ones and two `null`s included) exactly draw, everything else is invalid |
| PatternMatching.SwappingPlayersSwapsWinner | SimpleGoodPatterns/PattternMatchingExample/PatternMatchingDemo.cs:60-64 | swapping the players swaps the winners and keeps draws and invalid moves |
| PatternMatching.EachMoveHasOneWinner | SimpleGoodPatterns/PattternMatchingExample/PatternMatchingDemo.cs:62-63 | each valid move is beaten by exactly one move, never by itself |
| PatternMatching.AnalyzeNumbers | SimpleGoodPatterns/PattternMatchingExample/PatternMatchingDemo.cs:69-76 | `null` reaches the last arm; the empty array is reported empty |
| PatternMatching.ArraysNeverReachLastArm | SimpleGoodPatterns/PattternMatchingExample/PatternMatchingDemo.cs:69-76 | no array reaches the last arm; exactly the empty array is reported empty; a one-element report reads back its element |
| PatternMatching.LongerReportsReadBack | SimpleGoodPatterns/PattternMatchingExample/PatternMatchingDemo.cs:73-74 | two elements are reported under "Dwa elementy: " and read back as the first then the second around ", "; three or more under "Pierwszy: " and read back as the first then the last around ", ostatni: " |
| PatternMatching.PairReportIsFaithful | SimpleGoodPatterns/PattternMatchingExample/PatternMatchingDemo.cs:73 | two-element arrays get the same report exactly when they are equal |
| PatternMatching.LongArraysReportEnds | SimpleGoodPatterns/PattternMatchingExample/PatternMatchingDemo.cs:74 | arrays of three or more get the same report exactly when their first and last elements agree |
| PatternMatching.GetAgeGroup | SimpleGoodPatterns/PattternMatchingExample/PatternMatchingDemo.cs:90-97 | each of the five labels is given exactly on its range: negative, 0-12, 13-19, 20-59, 60 and over |
| PatternMatching.AgeGroupsPartitionInOrder | SimpleGoodPatterns/PattternMatchingExample/PatternMatchingDemo.cs:90-97 | every age gets exactly one group, and an older age never gets a younger group |
| PatternMatching.IsWorkingHour | SimpleGoodPatterns/PattternMatchingExample/PatternMatchingDemo.cs:100-104 | an hour is a working hour exactly when it is listed among 9, 10, 11, 13, 14, 15, 16 and 17 |
| PatternMatching.EightWorkingHours | SimpleGoodPatterns/PattternMatchingExample/PatternMatchingDemo.cs:100-104 | the 24-hour clock has exactly eight working hours |

## Left out

- Clocks: `DateTime.Now` and `Stopwatch` are replaced by an explicit clock reading in milliseconds since a local midnight. Elapsed time is measured on that same clock. Hooks take no time; only the action takes its `duration`.
- Logger sinks and categories: the log is one sequence of (level, text) entries shared by all filters.
- Concurrency: the static cache dictionary and the shared stopwatch field are modelled for one call at a time.
- Filter ordering: the runner's ordering rules belong to the framework, which is not part of this model. Logging outermost, then declaration order, is an assumption.
- Filter lifetime: the stopwatch field persists from one call to the next in a session. How `Program.cs` registers the filters is not part of this model.
- Exceptions thrown by the filters themselves are not modelled; only the action may throw.
- Action bodies: `Thread.Sleep`, `Random.Shared` and the user objects are abstracted to a returned result or thrown error plus a duration.
- Route values: `controller` and `action` are strings; a missing route value is not modelled.
- Rendering of other values: `ToString()` of non-`int`, non-`string` arguments (request bodies, other numbers) is an opaque text. Integers are rendered with the invariant culture, and the clock formats use ':' as the time separator, as the invariant and pl-PL cultures do; another culture's time separator is not modelled.
- CalculateArea and LinqWithPatterns: floating-point areas and console output.
- ProcessData: runtime type tests over `object` and generic collections.
- `Program.Main` of the pattern-matching demo only prints.
- Other parts of the repository: the console-writing and attribute-based logging filters, the identity service, the SQL application and the HTTP client wrapper. They are not part of this model.
- CacheFilter.OnActionExecuting: states how many entries it logs, not their text.
- CacheFilter.OnActionExecuted: states that the Ok value is stored, not the text of its log entry.
- PatternMatching.AnalyzeNumbers: its own contract covers only the `null` and empty arms. The texts of the other arms are stated by `ArraysNeverReachLastArm` (one element) and `LongerReportsReadBack` (two, and three or more).

## Findings

| source | as written | input that shows it | evidently intended | confidence | as-written member | corrected member |
|---|---|---|---|---|---|---|
| ActionFiltersExample/Filters/CacheActionFilter.cs:57-63 | the post-hook stores under `controller_action`, while the pre-hook reads `controller_action_params` (line 54); the two keys never coincide, so no call is ever answered from the cache | two `GetUsers` calls one second apart: both run the action | the post-hook stores under the key the pre-hook reads, so a repeated call within five minutes is served from the cache | high, not executed | CacheFilter.WriteInvisibleToSameAction | UserController.CorrectedGetUsersScenario |

=== FILE: cache_filter.dfy ===
/**
 CacheActionFilter: a process-wide store of action results with an absolute
 five-minute expiry. The pre-hook answers from the store when an entry is still
 fresh and evicts it lazily when it is stale; the post-hook stores every
 `OkObjectResult`. The two hooks build their keys differently (see
 `ExecutingKey` and `ExecutedKey`), so as written an entry is never read back
 by the action that wrote it; `OnActionExecutedCorrected` is the post-hook with
 the key the pre-hook reads.
 */
module CacheFilter {
  import opened Optional
  import opened Mvc
  import Text

  /** Entries live five minutes from the moment they are written. */
  const Ttl: nat := 5 * Text.MillisPerMinute

  datatype Entry = Entry(value: Value, expiry: Time)

  /** The static `_cache` dictionary. */
  type Store = map<string, Entry>

  /** What one hook call leaves behind: the store, the context and the log entries it wrote. */
  datatype Step = Step(store: Store, ctx: Context, log: seq<LogEntry>)

  /**
   The key written by the post-hook: controller and action only, separated by
   '_'; no argument contributes to it.
   */
  function ExecutedKey(controller: string, action: string): (key: string)
    ensures |key| == |controller| + 1 + |action|
    ensures key[..|controller|] == controller && key[|controller|] == '_'
    ensures key[|controller| + 1..] == action
  {
    controller + "_" + action
  }

  /**
   The key read by the pre-hook: controller, action and every argument as
   `name_value`, all joined with '_'. It extends the post-hook's key for the same
   action by at least one character, so the two never coincide.
   */
  function ExecutingKey(controller: string, action: string, args: Arguments): (key: string)
    ensures |key| > |ExecutedKey(controller, action)|
    ensures key[..|ExecutedKey(controller, action)|] == ExecutedKey(controller, action)
    ensures key[|ExecutedKey(controller, action)|] == '_'
    ensures key != ExecutedKey(controller, action)
  {
    controller + "_" + action + "_" + Text.Join("_", Pairs(args, "_"))
  }

  /** The pre-hook (`OnActionExecuting`) at clock reading `now`. */
  function OnActionExecuting(store: Store, ctx: Context, now: Time): (r: Step)
    ensures var key := ExecutingKey(ctx.controller, ctx.action, ctx.args);
      && (key !in store ==> r.store == store && r.ctx == ctx && r.log == [])
      && (key in store && now < store[key].expiry ==>
            && r.store == store
            && r.ctx == ctx.(result := Some(OkObject(store[key].value)))
            && |r.log| == 1)
      && (key in store && store[key].expiry <= now ==>
            && r.ctx == ctx
            && r.store.Keys == store.Keys - {key}
            && (forall k :: k in r.store ==> r.store[k] == store[k])
            && |r.log| == 1)
  {
    var key := ExecutingKey(ctx.controller, ctx.action, ctx.args);
    if key in store then
      var item := store[key];
      if now < item.expiry then
        Step(store, ctx.(result := Some(OkObject(item.value))),
             [Info("Zwracam wynik z cache dla klucza: " + key)])
      else
        Step(store - {key}, ctx, [Info("Usuwam wygasły cache dla klucza: " + key)])
    else
      Step(store, ctx, [])
  }

  predicate IsOk(result: Option<ActionResult>) {
    result.Some? && result.value.OkObject?
  }

  /** Stores an `OkObjectResult` under `key` until `now + Ttl`; anything else is ignored. */
  function Populate(store: Store, key: string, ctx: Context, now: Time): (r: Step)
    ensures r.ctx == ctx
    ensures !IsOk(ctx.result) ==> r.store == store && r.log == []
    ensures IsOk(ctx.result) ==>
      && r.store.Keys == store.Keys + {key}
      && r.store[key] == Entry(ctx.result.value.value, now + Ttl)
      && (forall k :: k in store && k != key ==> r.store[k] == store[k])
      && |r.log| == 1
  {
    if IsOk(ctx.result) then
      var expiry := now + Ttl;
      Step(store[key := Entry(ctx.result.value.value, expiry)], ctx,
           [Info("Zapisano wynik do cache z kluczem: " + key + ", wygasa: " + Text.FormatTime(expiry))])
    else
      Step(store, ctx, [])
  }

  /** The post-hook (`OnActionExecuted`) as written: it stores under `ExecutedKey`. */
  function OnActionExecuted(store: Store, ctx: Context, now: Time): (r: Step)
    ensures r.ctx == ctx
    ensures !IsOk(ctx.result) ==> r.store == store && r.log == []
    ensures IsOk(ctx.result) ==>
      var key := ExecutedKey(ctx.controller, ctx.action);
      && r.store.Keys == store.Keys + {key}
      && r.store[key] == Entry(ctx.result.value.value, now + Ttl)
      && (forall k :: k in store && k != key ==> r.store[k] == store[k])
  {
    Populate(store, ExecutedKey(ctx.controller, ctx.action), ctx, now)
  }

  /** The post-hook with the key the pre-hook reads. */
  function OnActionExecutedCorrected(store: Store, ctx: Context, now: Time): (r: Step)
    ensures r.ctx == ctx
    ensures !IsOk(ctx.result) ==> r.store == store && r.log == []
    ensures IsOk(ctx.result) ==>
      var key := ExecutingKey(ctx.controller, ctx.action, ctx.args);
      && r.store.Keys == store.Keys + {key}
      && r.store[key] == Entry(ctx.result.value.value, now + Ttl)
      && (forall k :: k in store && k != key ==> r.store[k] == store[k])
  {
    Populate(store, ExecutingKey(ctx.controller, ctx.action, ctx.args), ctx, now)
  }

  /** Every entry expires at most one TTL after `now`: no entry outlives its five minutes. */
  predicate WithinTtl(store: Store, now: Time) {
    forall k :: k in store ==> store[k].expiry <= now + Ttl
  }

  /** Both hooks keep every entry within one TTL of the clock, and so does time passing. */
  lemma HooksKeepWithinTtl(store: Store, ctx: Context, now: Time, later: Time)
    requires WithinTtl(store, now)
    requires now <= later
    ensures WithinTtl(store, later)
    ensures WithinTtl(OnActionExecuting(store, ctx, later).store, later)
    ensures WithinTtl(OnActionExecuted(store, ctx, later).store, later)
    ensures WithinTtl(OnActionExecutedCorrected(store, ctx, later).store, later)
  {
    PopulateKeepsWithinTtl(store, ExecutedKey(ctx.controller, ctx.action), ctx, later);
    PopulateKeepsWithinTtl(store, ExecutingKey(ctx.controller, ctx.action, ctx.args), ctx, later);
  }

  lemma PopulateKeepsWithinTtl(store: Store, key: string, ctx: Context, now: Time)
    requires WithinTtl(store, now)
    ensures WithinTtl(Populate(store, key, ctx, now).store, now)
  {
  }

  /** The store after the as-written post-hook ran once for each (context, clock) pair of `calls`, in order. */
  function WriteAll(store: Store, calls: seq<(Context, Time)>): Store
    decreases |calls|
  {
    if |calls| == 0 then store
    else WriteAll(OnActionExecuted(store, calls[0].0, calls[0].1).store, calls[1..])
  }

  /** As written, no number of post-hook writes for one action touches the entry its pre-hook reads. */
  lemma {:induction false} WritesMissExecutingKey(store: Store, calls: seq<(Context, Time)>, controller: string, action: string, args: Arguments)
    requires forall i :: 0 <= i < |calls| ==> calls[i].0.controller == controller && calls[i].0.action == action
    ensures var key := ExecutingKey(controller, action, args);
      var written := WriteAll(store, calls);
      && (key in written <==> key in store)
      && (key in store ==> written[key] == store[key])
    decreases |calls|
  {
    if |calls| > 0 {
      var next := OnActionExecuted(store, calls[0].0, calls[0].1).store;
      var key := ExecutingKey(controller, action, args);
      assert key != ExecutedKey(controller, action);
      assert key in next <==> key in store;
      assert forall i :: 0 <= i < |calls[1..]| ==> calls[1..][i] == calls[i + 1];
      WritesMissExecutingKey(next, calls[1..], controller, action, args);
    }
  }

  /**
   As written, whatever the post-hook stored for a controller and action, over
   any number of calls, the pre-hook of that controller and action answers as
   if nothing had been stored, whatever the arguments and the clock.
   */
  lemma WriteInvisibleToSameAction(store: Store, calls: seq<(Context, Time)>, ctx': Context, later: Time)
    requires forall i :: 0 <= i < |calls| ==> calls[i].0.controller == ctx'.controller && calls[i].0.action == ctx'.action
    ensures OnActionExecuting(WriteAll(store, calls), ctx', later).ctx == OnActionExecuting(store, ctx', later).ctx
  {
    WritesMissExecutingKey(store, calls, ctx'.controller, ctx'.action, ctx'.args);
  }

  /**
   The key grows with the arguments in binding order: with none it is the route
   part and a trailing '_' (what `GetUsers` reads), and each further argument
   adds '_', its name, '_' and its value text at the end.
   */
  lemma ExecutingKeyGrows(controller: string, action: string, args: Arguments, x: Arg)
    ensures ExecutingKey(controller, action, []) == ExecutedKey(controller, action) + "_"
    ensures |args| >= 1 ==>
      ExecutingKey(controller, action, args + [x])
      == ExecutingKey(controller, action, args) + "_" + x.name + "_" + ValueText(x.value)
  {
    assert Pairs([], "_") == [];
    if |args| >= 1 {
      var last := x.name + "_" + ValueText(x.value);
      assert Pairs(args + [x], "_") == Pairs(args, "_") + [last];
      Text.JoinSnoc("_", Pairs(args, "_"), last);
    }
  }

  /** For one `int` argument the key is the route part, the name, '_' and the rendered number. */
  lemma OneIntArgumentKey(controller: string, action: string, name: string, i: Text.Int32)
    ensures ExecutingKey(controller, action, [Arg(name, IntValue(i))])
         == controller + "_" + action + "_" + name + "_" + Text.IntToString(i)
  {
    assert Pairs([Arg(name, IntValue(i))], "_") == [name + "_" + Text.IntToString(i)];
  }

  /**
   The key does depend on the arguments: for an action with one `int`
   parameter (`GetUser(int id)`), the number reads back from the end of the
   key, and two calls share a key exactly when they pass the same number.
   */
  lemma IntArgumentKeys(controller: string, action: string, name: string, i: Text.Int32, j: Text.Int32)
    ensures var key := ExecutingKey(controller, action, [Arg(name, IntValue(i))]);
      var head := |controller| + |action| + |name| + 3;
      && |key| > head
      && key[..head] == controller + "_" + action + "_" + name + "_"
      && Text.IsIntText(key[head..])
      && Text.ParseInt(key[head..]) == i
    ensures (ExecutingKey(controller, action, [Arg(name, IntValue(i))])
             == ExecutingKey(controller, action, [Arg(name, IntValue(j))])) <==> i == j
  {
    var p := controller + "_" + action + "_" + name + "_";
    OneIntArgumentKey(controller, action, name, i);
    OneIntArgumentKey(controller, action, name, j);
    Text.ReadBetween(p, i, "");
    assert p + Text.IntToString(i) + "" == p + Text.IntToString(i);
    if p + Text.IntToString(i) == p + Text.IntToString(j) {
      assert Text.IntToString(i) == (p + Text.IntToString(i))[|p|..];
      assert Text.IntToString(j) == (p + Text.IntToString(j))[|p|..];
      Text.IntToStringInjective(i, j);
    }
  }

  /**
   With the corrected post-hook, an `OkObjectResult` stored at `now` is served
   to the same call until `now + Ttl` and evicted from then on.
   */
  lemma CorrectedRoundTrip(store: Store, ctx: Context, now: Time, later: Time)
    requires IsOk(ctx.result)
    requires now <= later
    ensures var written := OnActionExecutedCorrected(store, ctx, now).store;
      var again := OnActionExecuting(written, ctx.(result := None), later);
      && (later < now + Ttl ==> again.ctx.result == ctx.result && again.store == written)
      && (later >= now + Ttl ==>
            again.ctx.result == None
            && ExecutingKey(ctx.controller, ctx.action, ctx.args) !in again.store)
  {
  }

  /**
   The key is not injective: with '_' inside names or values, two different
   argument lists give the same key for every controller and action.
   */
  lemma KeysCollide(controller: string, action: string)
    ensures exists a1: Arguments, a2: Arguments ::
      && a1 != a2
      && DistinctNames(a1) && DistinctNames(a2)
      && ExecutingKey(controller, action, a1) == ExecutingKey(controller, action, a2)
  {
    var a1 := [Arg("a", StringValue("b_c"))];
    var a2 := [Arg("a_b", StringValue("c"))];
    assert ValueText(a1[0].value) == "b_c";
    assert ValueText(a2[0].value) == "c";
    assert Pairs(a1, "_")[0] == "a" + "_" + "b_c" == "a_b_c";
    assert Pairs(a2, "_")[0] == "a_b" + "_" + "c" == "a_b_c";
    assert Pairs(a1, "_") == Pairs(a2, "_");
    assert a1[0].name != a2[0].name;
    assert ExecutingKey(controller, action, a1) == ExecutingKey(controller, action, a2);
  }
}

=== FILE: logging_filter.dfy ===
/**
 LoggingActionFilter: both hooks only write information entries. The pre-hook
 lists controller, action, clock and the `key=value` parameter line; the
 post-hook lists controller, action, clock and whether an exception is present.
 */
module LoggingFilter {
  import opened Optional
  import opened Mvc
  import Text

  const ErrorStatus: string := "BŁĄD"
  const SuccessStatus: string := "SUKCES"

  /** The parameter line: every argument as `key=value`, in argument order, joined by ", ". */
  function ParameterLine(args: Arguments): string
  {
    Text.Join(", ", Pairs(args, "="))
  }

  /** An empty argument map gives an empty line; otherwise the line grows by one pair per argument, at its end. */
  lemma {:induction false} ParameterLineGrows(args: Arguments, a: Arg)
    ensures ParameterLine([]) == ""
    ensures ParameterLine([a]) == a.name + "=" + ValueText(a.value)
    ensures |args| >= 1 ==>
      ParameterLine(args + [a]) == ParameterLine(args) + ", " + a.name + "=" + ValueText(a.value)
  {
    assert Pairs([a], "=") == [a.name + "=" + ValueText(a.value)];
    if |args| >= 1 {
      var pairs := Pairs(args + [a], "=");
      assert pairs == Pairs(args, "=") + [a.name + "=" + ValueText(a.value)];
      Text.JoinSnoc(", ", Pairs(args, "="), a.name + "=" + ValueText(a.value));
    }
  }

  /** The outcome word: the error word exactly when an exception is present. */
  function Status(exception: Option<string>): (s: string)
    ensures s == ErrorStatus <==> exception.Some?
    ensures s == SuccessStatus <==> exception.None?
  {
    if exception.Some? then ErrorStatus else SuccessStatus
  }

  /** The pre-hook's five entries (`OnActionExecuting`), all informational. */
  function OnActionExecuting(ctx: Context, now: Time): (log: seq<LogEntry>)
    ensures |log| == 5
    ensures forall i :: 0 <= i < |log| ==> log[i].level == Information
    ensures log[0].text == "=== WYKONYWANIE AKCJI ==="
    ensures log[1].text == "Controller: " + ctx.controller
    ensures log[2].text == "Action: " + ctx.action
    ensures log[3].text == "Czas: " + Text.FormatTimeMillis(now)
    ensures log[4].text == "Parametry: " + ParameterLine(ctx.args)
  {
    [ Info("=== WYKONYWANIE AKCJI ==="),
      Info("Controller: " + ctx.controller),
      Info("Action: " + ctx.action),
      Info("Czas: " + Text.FormatTimeMillis(now)),
      Info("Parametry: " + ParameterLine(ctx.args)) ]
  }

  /** The post-hook's six entries (`OnActionExecuted`), all informational, the fifth naming the outcome. */
  function OnActionExecuted(ctx: Context, now: Time): (log: seq<LogEntry>)
    ensures |log| == 6
    ensures forall i :: 0 <= i < |log| ==> log[i].level == Information
    ensures log[0].text == "=== ZAKOŃCZENIE AKCJI ==="
    ensures log[1].text == "Controller: " + ctx.controller
    ensures log[2].text == "Action: " + ctx.action
    ensures log[3].text == "Czas: " + Text.FormatTimeMillis(now)
    ensures log[4].text == "Status: " + Status(ctx.exception)
    ensures log[4].text == "Status: " + ErrorStatus <==> ctx.exception.Some?
    ensures log[4].text == "Status: " + SuccessStatus <==> ctx.exception.None?
    ensures log[5].text == ""
  {
    [ Info("=== ZAKOŃCZENIE AKCJI ==="),
      Info("Controller: " + ctx.controller),
      Info("Action: " + ctx.action),
      Info("Czas: " + Text.FormatTimeMillis(now)),
      Info("Status: " + Status(ctx.exception)),
      Info("") ]
  }
}

=== FILE: mvc.dfy ===
/**
 The slice of the MVC framework the action filters see: action arguments,
 action results, the executing/executed context and leveled log entries.
 */
module Mvc {
  import opened Optional
  import Text

  /** A clock reading: milliseconds on the local clock since a local midnight. */
  type Time = nat

  /**
   A bound action argument as the filters see it through `object`: a boxed `int`,
   a `string`, `null`, or any other object, known only by its `ToString()` text
   (request bodies, `long`, `bool`, ...).
   */
  datatype Value = IntValue(i: Text.Int32) | StringValue(s: string) | Null | Other(text: string)

  /** What string interpolation writes for a value: `ToString()`, and nothing for `null`. */
  function ValueText(v: Value): (s: string)
    ensures v.IntValue? ==> Text.IsIntText(s) && Text.ParseInt(s) == v.i
    ensures v.StringValue? ==> s == v.s
    ensures v.Null? ==> s == ""
  {
    match v
    case IntValue(i) =>
      Text.IntToStringRoundTrip(i);
      Text.IntToString(i)
    case StringValue(s) => s
    case Null => ""
    case Other(text) => text
  }

  /** One entry of `ActionArguments`: the parameter name and its bound value. */
  datatype Arg = Arg(name: string, value: Value)

  /** `ActionArguments` in its iteration order. */
  type Arguments = seq<Arg>

  /** Argument names are dictionary keys, so they are distinct. */
  predicate DistinctNames(args: Arguments) {
    forall i, j :: 0 <= i < j < |args| ==> args[i].name != args[j].name
  }

  /**
   `kvp => $"{kvp.Key}{sep}{kvp.Value}"` applied to every argument in order
   (the `Select` of the cache key and of the logged parameter line).
   */
  function Pairs(args: Arguments, sep: string): (r: seq<string>)
    ensures |r| == |args|
    ensures forall i :: 0 <= i < |args| ==> r[i] == args[i].name + sep + ValueText(args[i].value)
  {
    if |args| == 0 then []
    else [args[0].name + sep + ValueText(args[0].value)] + Pairs(args[1..], sep)
  }

  /** The action results the filters and handlers produce. */
  datatype ActionResult =
    | OkObject(value: Value)                                 // OkObjectResult
    | BadRequestObject(message: string, errors: seq<string>) // BadRequestObjectResult over { Message, Errors }
    | NoContent                                              // NoContentResult
    | CreatedAtAction(value: Value)                          // CreatedAtActionResult, not an OkObjectResult

  /**
   The action context: route values, bound arguments, the result slot and the
   exception slot (only ever set after the action ran).
   */
  datatype Context = Context(
    controller: string,
    action: string,
    args: Arguments,
    result: Option<ActionResult>,
    exception: Option<string>)

  datatype Level = Information | Warning

  datatype LogEntry = LogEntry(level: Level, text: string)

  function Info(text: string): LogEntry { LogEntry(Information, text) }

  function Warn(text: string): LogEntry { LogEntry(Warning, text) }
}

=== FILE: optional.dfy ===
/** A value that may be absent; stands for a C# null reference or an unset slot. */
module Optional {

  datatype Option<+T> = None | Some(value: T) {

    /** The value, or `default` when absent. */
    function GetOr(default: T): (r: T)
      ensures Some? ==> r == value
      ensures None? ==> r == default
    {
      match this
      case Some(v) => v
      case None => default
    }
  }
}

=== FILE: patterns.dfy ===
/**
 The decision functions of `PatternMatchingDemo`: switch expressions over
 enums, records, strings, arrays and integers. Each `switch` arm is tried in
 order and the first that matches decides. A C# enum can hold any value of its
 underlying `int`, and a reference can be `null`, so the `_` arms that look
 unreachable are reached by undefined enum values and by `null`.
 */
module PatternMatching {
  import opened Optional
  import Text

  // ---------------------------------------------------------------- GetDayType

  /** `System.DayOfWeek`: its underlying `int`, Sunday being 0 and Saturday 6. */
  type DayOfWeek = Text.Int32

  const Sunday: DayOfWeek := 0
  const Monday: DayOfWeek := 1
  const Tuesday: DayOfWeek := 2
  const Wednesday: DayOfWeek := 3
  const Thursday: DayOfWeek := 4
  const Friday: DayOfWeek := 5
  const Saturday: DayOfWeek := 6

  const WorkingDay: string := "Dzień roboczy"
  const WeekendDay: string := "Weekend"
  const UnknownDay: string := "Nieznany dzień"

  /** Monday to Friday are working days, Saturday and Sunday the weekend, any other value unknown. */
  function GetDayType(day: DayOfWeek): (r: string)
    ensures r == WorkingDay <==> Monday <= day <= Friday
    ensures r == WeekendDay <==> day == Saturday || day == Sunday
    ensures r == UnknownDay <==> day < Sunday || Saturday < day
  {
    if day == Monday || day == Tuesday || day == Wednesday || day == Thursday || day == Friday then
      WorkingDay
    else if day == Saturday || day == Sunday then
      WeekendDay
    else
      UnknownDay
  }

  /** Every defined day has a known type, five of them working days. */
  lemma WeekHasFiveWorkingDays()
    ensures (set d: DayOfWeek | Sunday <= d <= Saturday && GetDayType(d) == WorkingDay)
         == {Monday, Tuesday, Wednesday, Thursday, Friday}
    ensures forall d: DayOfWeek :: Sunday <= d <= Saturday ==> GetDayType(d) != UnknownDay
  {
    var working := set d: DayOfWeek | Sunday <= d <= Saturday && GetDayType(d) == WorkingDay;
    assert GetDayType(Monday) == WorkingDay && GetDayType(Tuesday) == WorkingDay;
    assert GetDayType(Wednesday) == WorkingDay && GetDayType(Thursday) == WorkingDay;
    assert GetDayType(Friday) == WorkingDay;
    assert forall d :: d in working ==> d in {Monday, Tuesday, Wednesday, Thursday, Friday};
  }

  // ------------------------------------------------------------ ClassifyPerson

  datatype Person = Person(name: string, age: Text.Int32, city: string)

  const Child: string := "Dziecko"
  const WarsawAdult: string := "Dorosły z Warszawy"
  const Adult: string := "Dorosły"
  const Senior: string := "Senior"
  const Unclassified: string := "Niesklasyfikowany"

  const Warsaw: string := "Warszawa"

  /**
   Property patterns never match `null`, so `None` falls through to the last
   arm; every person lands in exactly one of the four age arms, the Warsaw arm
   winning over the plain adult arm because it comes first.
   */
  function ClassifyPerson(person: Option<Person>): (r: string)
    ensures r == Unclassified <==> person.None?
    ensures person.Some? ==> var p := person.value;
      && (r == Child <==> p.age < 18)
      && (r == WarsawAdult <==> 18 <= p.age < 65 && p.city == Warsaw)
      && (r == Adult <==> 18 <= p.age < 65 && p.city != Warsaw)
      && (r == Senior <==> p.age >= 65)
  {
    match person
    case None => Unclassified
    case Some(p) =>
      if p.age < 18 then Child
      else if p.age >= 18 && p.age < 65 && p.city == Warsaw then WarsawAdult
      else if p.age >= 18 && p.age < 65 then Adult
      else if p.age >= 65 then Senior
      else Unclassified
  }

  /**
   The name never matters, and the city matters only between 18 and 64: two
   people of the same age are classified alike unless they are adults in
   different cities, one of them Warsaw.
   */
  lemma ClassificationNeedsOnlyAgeAndCity(p: Person, q: Person)
    requires p.age == q.age
    ensures p.city == q.city ==> ClassifyPerson(Some(p)) == ClassifyPerson(Some(q))
    ensures !(18 <= p.age < 65) ==> ClassifyPerson(Some(p)) == ClassifyPerson(Some(q))
    ensures ClassifyPerson(Some(p)) != ClassifyPerson(Some(q)) <==>
      18 <= p.age < 65 && (p.city == Warsaw) != (q.city == Warsaw)
  {
  }

  // ----------------------------------------------------- GetActivitySuggestion

  /** `WeatherType`: its underlying `int`. */
  type WeatherType = Text.Int32

  const Sunny: WeatherType := 0
  const Rainy: WeatherType := 1
  const Cloudy: WeatherType := 2
  const Snowy: WeatherType := 3

  const Beach: string := "Idź na plażę!"
  const Park: string := "Spacer w parku"
  const Jacket: string := "Słońce, ale chłodno - weź kurtkę"
  const Book: string := "Zostań w domu z książką"
  const Jogging: string := "Dobra pogoda na jogging"
  const Mall: string := "Może pójść do centrum handlowego"
  const Skiing: string := "Czas na narten!"
  const CheckForecast: string := "Sprawdź prognozę pogody"

  /**
   Sunny weather splits at 15 and 25 degrees, cloudy weather at 20; rain and
   snow ignore the temperature; a value outside the enum gets the forecast hint.
   */
  function GetActivitySuggestion(weather: WeatherType, temperature: Text.Int32): (r: string)
    ensures weather == Sunny ==>
      && (r == Beach <==> temperature > 25)
      && (r == Park <==> 15 < temperature <= 25)
      && (r == Jacket <==> temperature <= 15)
    ensures weather == Rainy ==> r == Book
    ensures weather == Cloudy ==>
      && (r == Jogging <==> temperature > 20)
      && (r == Mall <==> temperature <= 20)
    ensures weather == Snowy ==> r == Skiing
    ensures r == CheckForecast <==> weather < Sunny || Snowy < weather
  {
    if weather == Sunny && temperature > 25 then Beach
    else if weather == Sunny && temperature > 15 then Park
    else if weather == Sunny then Jacket
    else if weather == Rainy then Book
    else if weather == Cloudy && temperature > 20 then Jogging
    else if weather == Cloudy then Mall
    else if weather == Snowy then Skiing
    else CheckForecast
  }

  /**
   Reference reading of the guards: the temperature band a reading falls in,
   for the weather at hand. Only sunny and cloudy weather have more than one band.
   */
  function Band(weather: WeatherType, temperature: int): nat {
    if weather == Sunny then (if temperature > 25 then 2 else if temperature > 15 then 1 else 0)
    else if weather == Cloudy then (if temperature > 20 then 1 else 0)
    else 0
  }

  /** The suggestion depends on the temperature only through its band, and different bands get different suggestions. */
  lemma SuggestionFollowsBand(weather: WeatherType, t1: Text.Int32, t2: Text.Int32)
    ensures GetActivitySuggestion(weather, t1) == GetActivitySuggestion(weather, t2)
        <==> Band(weather, t1) == Band(weather, t2)
  {
  }

  // ------------------------------------------------ GetRockPaperScissorsResult

  const Rock: string := "kamień"
  const Paper: string := "papier"
  const Scissors: string := "nożyce"

  const Player1Wins: string := "Gracz 1 wygrywa!"
  const Player2Wins: string := "Gracz 2 wygrywa!"
  const Draw: string := "Remis!"
  const InvalidMove: string := "Nieprawidłowy ruch"

  /** Position of a valid move on the rock, paper, scissors cycle. */
  function MoveIndex(m: string): Option<nat> {
    if m == Rock then Some(0) else if m == Paper then Some(1) else if m == Scissors then Some(2) else None
  }

  /**
   Reference definition of winning: both moves valid, and the first one step
   ahead of the second on the cycle, each move beating its predecessor.
   */
  predicate Beats(p: Option<string>, q: Option<string>) {
    && p.Some? && q.Some?
    && MoveIndex(p.value).Some? && MoveIndex(q.value).Some?
    && (MoveIndex(p.value).value - MoveIndex(q.value).value) % 3 == 1
  }

  /**
   The six winning pairs first, then equal inputs, which C# compares by value
   and where two `null`s are equal; everything else is invalid.
   */
  function GetRockPaperScissorsResult(player1: Option<string>, player2: Option<string>): (r: string)
    ensures r == Player1Wins <==> Beats(player1, player2)
    ensures r == Player2Wins <==> Beats(player2, player1)
    ensures r == Draw <==> player1 == player2
    ensures r == InvalidMove <==> player1 != player2 && !Beats(player1, player2) && !Beats(player2, player1)
  {
    match (player1, player2)
    case (Some(p1), Some(p2)) =>
      if (p1 == Rock && p2 == Scissors) || (p1 == Paper && p2 == Rock) || (p1 == Scissors && p2 == Paper) then
        Player1Wins
      else if (p1 == Scissors && p2 == Rock) || (p1 == Rock && p2 == Paper) || (p1 == Paper && p2 == Scissors) then
        Player2Wins
      else if p1 == p2 then
        Draw
      else
        InvalidMove
    case _ =>
      if player1 == player2 then Draw else InvalidMove
  }

  /** Swapping the players swaps the two winning messages and leaves draws and invalid moves alone. */
  lemma SwappingPlayersSwapsWinner(p1: Option<string>, p2: Option<string>)
    ensures var r := GetRockPaperScissorsResult(p1, p2);
      var swapped := GetRockPaperScissorsResult(p2, p1);
      && (r == Player1Wins <==> swapped == Player2Wins)
      && (r == Draw <==> swapped == Draw)
      && (r == InvalidMove <==> swapped == InvalidMove)
  {
  }

  /** Exactly one of three valid moves beats a given valid move, and it is never the move itself. */
  lemma EachMoveHasOneWinner(m: string)
    requires MoveIndex(m).Some?
    ensures exists w :: MoveIndex(w).Some? && Beats(Some(w), Some(m))
    ensures forall w, w' :: Beats(Some(w), Some(m)) && Beats(Some(w'), Some(m)) ==> w == w'
    ensures !Beats(Some(m), Some(m))
  {
    if m == Rock {
      assert Beats(Some(Paper), Some(m));
    } else if m == Paper {
      assert Beats(Some(Scissors), Some(m));
    } else {
      assert Beats(Some(Rock), Some(m));
    }
  }

  // ------------------------------------------------------------ AnalyzeNumbers

  const EmptyArray: string := "Pusta tablica"
  const OnePrefix: string := "Jeden element: "
  const TwoPrefix: string := "Dwa elementy: "
  const FirstPrefix: string := "Pierwszy: "
  const Separator: string := ", "
  const LastSeparator: string := ", ostatni: "
  const MoreElements: string := "Więcej elementów"

  /**
   List patterns never match `null`, so the final arm is reached by `null`
   alone; every array falls into one of the four length arms.
   */
  function AnalyzeNumbers(numbers: Option<seq<Text.Int32>>): (r: string)
    ensures numbers.None? ==> r == MoreElements
    ensures numbers.Some? && |numbers.value| == 0 ==> r == EmptyArray
  {
    match numbers
    case None => MoreElements
    case Some(a) =>
      if |a| == 0 then EmptyArray
      else if |a| == 1 then OnePrefix + Text.IntToString(a[0])
      else if |a| == 2 then TwoPrefix + Text.IntToString(a[0]) + Separator + Text.IntToString(a[1])
      else FirstPrefix + Text.IntToString(a[0]) + LastSeparator + Text.IntToString(a[|a| - 1])
  }

  /**
   An array, whatever its length, never reaches the final arm, and only the
   empty array is reported empty; a one-element report reads back its element.
   */
  lemma ArraysNeverReachLastArm(a: seq<Text.Int32>)
    ensures AnalyzeNumbers(Some(a)) != MoreElements
    ensures AnalyzeNumbers(Some(a)) == EmptyArray <==> |a| == 0
    ensures |a| == 1 ==> var r := AnalyzeNumbers(Some(a));
      && r[..|OnePrefix|] == OnePrefix
      && Text.IsIntText(r[|OnePrefix|..])
      && Text.ParseInt(r[|OnePrefix|..]) == a[0]
  {
    var r := AnalyzeNumbers(Some(a));
    if |a| == 1 {
      Text.ReadBetween(OnePrefix, a[0], "");
      assert r == OnePrefix + Text.IntToString(a[0]) + "";
      assert r[0] == 'J';
    } else if |a| == 2 {
      assert r[0] == 'D';
    } else if |a| >= 3 {
      assert r[1] == 'i';
    }
  }

  /** A rendered integer holds only digits and '-', never a comma. */
  lemma NoCommaInInt(i: int)
    ensures forall k :: 0 <= k < |Text.IntToString(i)| ==> Text.IntToString(i)[k] != ','
  {
    var s := Text.IntToString(i);
    forall k | 0 <= k < |s|
      ensures s[k] != ','
    {
      if s[0] == '-' {
        if k > 0 {
          assert s[k] == s[1..][k - 1];
        }
      }
    }
  }

  /**
   Two texts that render an integer, then a separator starting with ',', then
   anything, split the same way only if the integers and the rests agree.
   */
  lemma SplitAtComma(i: int, j: int, sep: string, x: string, y: string)
    requires |sep| >= 1 && sep[0] == ','
    requires Text.IntToString(i) + sep + x == Text.IntToString(j) + sep + y
    ensures i == j && x == y
  {
    var a, b := Text.IntToString(i), Text.IntToString(j);
    var t := a + sep + x;
    NoCommaInInt(i);
    NoCommaInInt(j);
    assert t[|a|] == ',' && t[|b|] == ',';
    assert a == t[..|a|] == b;
    Text.IntToStringInjective(i, j);
    assert x == t[|a| + |sep|..] == y;
  }

  /**
   For arrays of three or more elements the report names exactly the first and
   the last element: two such arrays get the same report if and only if their
   first and their last elements agree, whatever lies between.
   */
  lemma LongArraysReportEnds(a: seq<Text.Int32>, b: seq<Text.Int32>)
    requires |a| >= 3 && |b| >= 3
    ensures AnalyzeNumbers(Some(a)) == AnalyzeNumbers(Some(b)) <==> a[0] == b[0] && a[|a| - 1] == b[|b| - 1]
  {
    var ra, rb := AnalyzeNumbers(Some(a)), AnalyzeNumbers(Some(b));
    if ra == rb {
      var x := Text.IntToString(a[|a| - 1]);
      var y := Text.IntToString(b[|b| - 1]);
      assert ra == FirstPrefix + (Text.IntToString(a[0]) + LastSeparator + x);
      assert rb == FirstPrefix + (Text.IntToString(b[0]) + LastSeparator + y);
      assert Text.IntToString(a[0]) + LastSeparator + x == ra[|FirstPrefix|..];
      assert Text.IntToString(b[0]) + LastSeparator + y == rb[|FirstPrefix|..];
      SplitAtComma(a[0], b[0], LastSeparator, x, y);
      Text.IntToStringInjective(a[|a| - 1], b[|b| - 1]);
    }
  }

  /** A two-element report names both elements in order: equal reports mean equal arrays. */
  lemma PairReportIsFaithful(a: seq<Text.Int32>, b: seq<Text.Int32>)
    requires |a| == 2 && |b| == 2
    ensures AnalyzeNumbers(Some(a)) == AnalyzeNumbers(Some(b)) <==> a == b
  {
    var ra, rb := AnalyzeNumbers(Some(a)), AnalyzeNumbers(Some(b));
    if ra == rb {
      var x := Text.IntToString(a[1]);
      var y := Text.IntToString(b[1]);
      assert Text.IntToString(a[0]) + Separator + x == ra[|TwoPrefix|..];
      assert Text.IntToString(b[0]) + Separator + y == rb[|TwoPrefix|..];
      SplitAtComma(a[0], b[0], Separator, x, y);
      Text.IntToStringInjective(a[1], b[1]);
      assert a == [a[0], a[1]] && b == [b[0], b[1]];
    }
  }

  /** The position of the first ',' in `s`, or `|s|` when there is none. */
  function CommaAt(s: string): (k: nat)
    ensures k <= |s|
    ensures forall j :: 0 <= j < k ==> s[j] != ','
    ensures k < |s| ==> s[k] == ','
  {
    if |s| == 0 || s[0] == ',' then 0 else 1 + CommaAt(s[1..])
  }

  /** In a rendered integer followed by a separator starting with ',', the first comma ends the integer. */
  lemma CommaEndsInt(i: int, sep: string, rest: string)
    requires |sep| >= 1 && sep[0] == ','
    ensures CommaAt(Text.IntToString(i) + sep + rest) == |Text.IntToString(i)|
  {
    var t := Text.IntToString(i) + sep + rest;
    NoCommaInInt(i);
    assert t[|Text.IntToString(i)|] == ',';
  }

  /**
   Reading a report of two or more elements back: after the arm's prefix, the
   text up to the first comma is `a[0]`, then comes the arm's separator, then
   the second element (two elements) or the last one (three or more).
   */
  predicate ReadsBackAs(r: string, prefix: string, first: int, sep: string, second: int)
  {
    && |r| >= |prefix|
    && r[..|prefix|] == prefix
    && var body := r[|prefix|..];
      var k := CommaAt(body);
      && Text.IsIntText(body[..k])
      && Text.ParseInt(body[..k]) == first
      && k + |sep| <= |body|
      && body[k..k + |sep|] == sep
      && Text.IsIntText(body[k + |sep|..])
      && Text.ParseInt(body[k + |sep|..]) == second
  }

  /** `prefix`, `i`, `sep`, `j` reads back as exactly that. */
  lemma ReadBackPair(prefix: string, i: int, sep: string, j: int)
    requires |sep| >= 1 && sep[0] == ','
    ensures ReadsBackAs(prefix + Text.IntToString(i) + sep + Text.IntToString(j), prefix, i, sep, j)
  {
    var x, y := Text.IntToString(i), Text.IntToString(j);
    var r := prefix + x + sep + y;
    var body := x + sep + y;
    assert r[..|prefix|] == prefix;
    assert r[|prefix|..] == body;
    CommaEndsInt(i, sep, y);
    assert body[..|x|] == x;
    assert body[|x|..|x| + |sep|] == sep;
    assert body[|x| + |sep|..] == y;
    Text.IntToStringRoundTrip(i);
    Text.IntToStringRoundTrip(j);
  }

  /**
   Two elements are reported under `TwoPrefix`, three or more under
   `FirstPrefix`; the named elements read back in order: both elements of a
   pair, and the first and the last of a longer array.
   */
  lemma LongerReportsReadBack(a: seq<Text.Int32>)
    ensures |a| == 2 ==> ReadsBackAs(AnalyzeNumbers(Some(a)), TwoPrefix, a[0], Separator, a[1])
    ensures |a| >= 3 ==> ReadsBackAs(AnalyzeNumbers(Some(a)), FirstPrefix, a[0], LastSeparator, a[|a| - 1])
  {
    if |a| == 2 {
      ReadBackPair(TwoPrefix, a[0], Separator, a[1]);
    } else if |a| >= 3 {
      ReadBackPair(FirstPrefix, a[0], LastSeparator, a[|a| - 1]);
    }
  }

  // --------------------------------------------------------------- GetAgeGroup

  const InvalidAge: string := "Nieprawidłowy wiek"
  const Teenager: string := "Nastolatek"

  /** Five ranges covering every `int`: negative, 0-12, 13-19, 20-59, 60 and above. */
  function GetAgeGroup(age: Text.Int32): (r: string)
    ensures r == InvalidAge <==> age < 0
    ensures r == Child <==> 0 <= age < 13
    ensures r == Teenager <==> 13 <= age < 20
    ensures r == Adult <==> 20 <= age < 60
    ensures r == Senior <==> age >= 60
  {
    if age < 0 then InvalidAge
    else if age >= 0 && age < 13 then Child
    else if age >= 13 && age < 20 then Teenager
    else if age >= 20 && age < 60 then Adult
    else Senior
  }

  /** The groups in age order. */
  const AgeGroups: seq<string> := [InvalidAge, Child, Teenager, Adult, Senior]

  /** Reference ranking of a group: its position in `AgeGroups`. */
  function GroupRank(group: string): nat {
    if group == InvalidAge then 0
    else if group == Child then 1
    else if group == Teenager then 2
    else if group == Adult then 3
    else 4
  }

  /** Every age falls in exactly one group, and an older age never falls in a younger group. */
  lemma AgeGroupsPartitionInOrder(age: Text.Int32, older: Text.Int32)
    requires age <= older
    ensures GetAgeGroup(age) in AgeGroups
    ensures forall k :: 0 <= k < |AgeGroups| ==> (AgeGroups[k] == GetAgeGroup(age) <==> k == GroupRank(GetAgeGroup(age)))
    ensures GroupRank(GetAgeGroup(age)) <= GroupRank(GetAgeGroup(older))
  {
  }

  // ------------------------------------------------------------- IsWorkingHour

  /** The working hours: nine to five with a lunch break at noon. */
  const WorkingHours: seq<int> := [9, 10, 11, 13, 14, 15, 16, 17]

  function IsWorkingHour(hour: Text.Int32): (r: bool)
    ensures r <==> hour in WorkingHours
  {
    hour >= 9 && hour <= 17 && hour != 12
  }

  /** A working day has eight working hours, all within the 24 hours of the clock. */
  lemma EightWorkingHours()
    ensures |set h: Text.Int32 | 0 <= h < 24 && IsWorkingHour(h)| == |WorkingHours| == 8
  {
    var hours := set h: Text.Int32 | 0 <= h < 24 && IsWorkingHour(h);
    var listed := {9, 10, 11, 13, 14, 15, 16, 17};
    forall h | h in hours
      ensures h in listed
    {
    }
    forall h | h in listed
      ensures h in hours
    {
      assert IsWorkingHour(h);
    }
    assert hours == listed;
  }
}

=== FILE: performance_filter.dfy ===
/**
 PerformanceActionFilter: the pre-hook starts a fresh stopwatch in the filter's
 single `_stopwatch` field; the post-hook stops it, logs the elapsed
 milliseconds and adds a warning when they exceed one second.
 */
module PerformanceFilter {
  import opened Optional
  import opened Mvc
  import Text

  /** Elapsed times strictly above this many milliseconds draw a warning. */
  const ThresholdMs: int := 1000

  /** A `Stopwatch`: started at `start`, and stopped at `stoppedAt` once `Stop` ran. */
  datatype Stopwatch = Stopwatch(start: Time, stoppedAt: Option<Time>)

  /** `ElapsedMilliseconds` read at clock reading `now`. */
  function ElapsedMs(sw: Stopwatch, now: Time): int {
    sw.stoppedAt.GetOr(now) - sw.start
  }

  /**
   What one hook call leaves behind: the `_stopwatch` field, the log entries it
   wrote and the elapsed time it measured, if it measured one.
   */
  datatype Step = Step(stopwatch: Option<Stopwatch>, log: seq<LogEntry>, elapsed: Option<int>)

  function StartMessage(action: string): string {
    "Rozpoczęcie pomiaru wydajności dla akcji: " + action
  }

  function DonePrefix(action: string): string {
    "Akcja " + action + " wykonana w "
  }

  function SlowMessage(action: string, elapsed: int): string {
    "Akcja " + action + " trwała dłużej niż 1 sekundę: " + Text.IntToString(elapsed) + "ms"
  }

  /** The pre-hook (`OnActionExecuting`): always a fresh running stopwatch, whatever the field held. */
  function OnActionExecuting(field: Option<Stopwatch>, ctx: Context, now: Time): (r: Step)
    ensures r.stopwatch == Some(Stopwatch(now, None))
    ensures r.log == [Info(StartMessage(ctx.action))]
    ensures r.elapsed == None
  {
    Step(Some(Stopwatch(now, None)), [Info(StartMessage(ctx.action))], None)
  }

  /**
   The post-hook (`OnActionExecuted`): nothing without a stopwatch; otherwise
   stop it, report the elapsed time and warn when it is above the threshold.
   */
  function OnActionExecuted(field: Option<Stopwatch>, ctx: Context, now: Time): (r: Step)
    ensures field.None? ==> r == Step(None, [], None)
    ensures field.Some? ==>
      && r.stopwatch.Some?
      && r.stopwatch.value.start == field.value.start
      && r.stopwatch.value.stoppedAt.Some?
      && r.elapsed == Some(ElapsedMs(field.value, now))
      && 1 <= |r.log| <= 2
      && r.log[0].level == Information
      && (|r.log| == 2 <==> r.elapsed.value > ThresholdMs)
      && (|r.log| == 2 ==> r.log[1] == Warn(SlowMessage(ctx.action, r.elapsed.value)))
  {
    match field
    case None => Step(None, [], None)
    case Some(sw) =>
      var stopped := if sw.stoppedAt.Some? then sw else sw.(stoppedAt := Some(now));
      var elapsed := ElapsedMs(stopped, now);
      var info := Info(DonePrefix(ctx.action) + Text.IntToString(elapsed) + "ms");
      var log := if elapsed > ThresholdMs then [info, Warn(SlowMessage(ctx.action, elapsed))] else [info];
      Step(Some(stopped), log, Some(elapsed))
  }

  /**
   A start at `t0` followed by the post-hook at `t1` reports `t1 - t0`, and the
   information entry carries that number between its prefix and "ms".
   */
  lemma ReportsTimeSinceStart(field: Option<Stopwatch>, ctx: Context, t0: Time, t1: Time)
    ensures var started := OnActionExecuting(field, ctx, t0).stopwatch;
      var done := OnActionExecuted(started, ctx, t1);
      var text := done.log[0].text;
      var prefix := DonePrefix(ctx.action);
      && done.elapsed == Some(t1 - t0)
      && |text| > |prefix| + 2
      && text[..|prefix|] == prefix
      && text[|text| - 2..] == "ms"
      && Text.IsIntText(text[|prefix|..|text| - 2])
      && Text.ParseInt(text[|prefix|..|text| - 2]) == t1 - t0
  {
    var started := OnActionExecuting(field, ctx, t0).stopwatch;
    var done := OnActionExecuted(started, ctx, t1);
    var text := DonePrefix(ctx.action) + Text.IntToString(t1 - t0) + "ms";
    assert done.log[0].text == text;
    Text.ReadBetween(DonePrefix(ctx.action), t1 - t0, "ms");
  }

  /** After a start at `t0`, the post-hook at `t1` writes a warning exactly when `t1 - t0` is above one second. */
  lemma WarnsIffSlow(field: Option<Stopwatch>, ctx: Context, t0: Time, t1: Time)
    ensures var started := OnActionExecuting(field, ctx, t0).stopwatch;
      var log := OnActionExecuted(started, ctx, t1).log;
      (exists k :: 0 <= k < |log| && log[k].level == Warning) <==> t1 - t0 > ThresholdMs
  {
    var started := OnActionExecuting(field, ctx, t0).stopwatch;
    var log := OnActionExecuted(started, ctx, t1).log;
    if t1 - t0 > ThresholdMs {
      assert log[1].level == Warning;
    }
  }

  /** The single field remembers only the latest start: a second pre-hook discards the first. */
  lemma RestartForgetsEarlierStart(field: Option<Stopwatch>, ctx: Context, t0: Time, t1: Time, t2: Time)
    ensures var first := OnActionExecuting(field, ctx, t0).stopwatch;
      var second := OnActionExecuting(first, ctx, t1).stopwatch;
      OnActionExecuted(second, ctx, t2).elapsed == Some(t2 - t1)
  {
  }

  /** Once stopped, a later post-hook reports the same elapsed time again. */
  lemma StoppedStopwatchStaysStopped(sw: Stopwatch, ctx: Context, t1: Time, t2: Time)
    ensures var once := OnActionExecuted(Some(sw), ctx, t1);
      OnActionExecuted(once.stopwatch, ctx, t2).elapsed == once.elapsed
  {
  }
}

=== FILE: pipeline.dfy ===
/**
 The filter runner around one action invocation. The framework that orders
 filters is not part of this model; the runner follows the synchronous
 action-filter invoker of ASP.NET Core MVC: pre-hooks run in binding order, a
 pre-hook that sets `Result` short-circuits (the action, the remaining
 pre-hooks and its own post-hook are skipped), and the post-hooks of the filters
 whose pre-hooks let the call through run in reverse order. Hooks take no time
 on the clock; the action takes `duration` milliseconds.
 */
module Pipeline {
  import opened Optional
  import opened Mvc
  import CacheFilter
  import ValidationFilter
  import PerformanceFilter
  import LoggingFilter
  import Text

  /** The filters a binding can name; `CorrectedCache` is the cache filter with the corrected post-hook key. */
  datatype Filter = Logging | Validation | Performance | Cache | CorrectedCache

  /** State that outlives one hook: the static cache, the performance filter's field, the log sink. */
  datatype Env = Env(
    cache: CacheFilter.Store,
    stopwatch: Option<PerformanceFilter.Stopwatch>,
    log: seq<LogEntry>)

  /** What the action does when it runs: return a result or throw, after `duration` milliseconds. */
  datatype Handler =
    | Returns(result: ActionResult, duration: nat)
    | Throws(error: string, duration: nat)

  datatype Hook = Before(filter: Filter) | Action | After(filter: Filter)

  /**
   The outcome of one invocation: the state left behind, the final context,
   whether the action ran, how many pre-hooks let the call through, the clock
   when the last post-hook ran, and the hooks in the order they ran.
   */
  datatype Invocation = Invocation(
    env: Env,
    ctx: Context,
    handlerRan: bool,
    passed: nat,
    finish: Time,
    trace: seq<Hook>)

  function Befores(fs: seq<Filter>): seq<Hook> {
    seq(|fs|, i requires 0 <= i < |fs| => Before(fs[i]))
  }

  function Afters(fs: seq<Filter>): seq<Hook> {
    seq(|fs|, i requires 0 <= i < |fs| => After(fs[i]))
  }

  function Reverse<T>(s: seq<T>): seq<T> {
    seq(|s|, i requires 0 <= i < |s| => s[|s| - 1 - i])
  }

  /** The context the action leaves: its result, or its exception and no result. */
  function ApplyHandler(handler: Handler, ctx: Context): Context {
    match handler
    case Returns(result, _) => ctx.(result := Some(result))
    case Throws(error, _) => ctx.(result := None, exception := Some(error))
  }

  /**
   One filter's pre-hook. Whatever the filter, it leaves the context alone or
   only sets its result; Logging and Performance never set it; each filter
   touches only its own state and appends to the log.
   */
  function RunBefore(f: Filter, env: Env, ctx: Context, now: Time): (r: (Env, Context))
    ensures r.1 == ctx || (r.1.result.Some? && r.1 == ctx.(result := r.1.result))
    ensures env.log <= r.0.log
    ensures f.Logging? ==>
      r == (env.(log := env.log + LoggingFilter.OnActionExecuting(ctx, now)), ctx)
    ensures f.Validation? ==> r == (env, ValidationFilter.OnActionExecuting(ctx))
    ensures f.Performance? ==>
      var step := PerformanceFilter.OnActionExecuting(env.stopwatch, ctx, now);
      r == (env.(stopwatch := step.stopwatch, log := env.log + step.log), ctx)
    ensures f.Cache? || f.CorrectedCache? ==>
      var step := CacheFilter.OnActionExecuting(env.cache, ctx, now);
      r == (env.(cache := step.store, log := env.log + step.log), step.ctx)
  {
    match f
    case Logging =>
      (env.(log := env.log + LoggingFilter.OnActionExecuting(ctx, now)), ctx)
    case Validation =>
      (env, ValidationFilter.OnActionExecuting(ctx))
    case Performance =>
      var step := PerformanceFilter.OnActionExecuting(env.stopwatch, ctx, now);
      (env.(stopwatch := step.stopwatch, log := env.log + step.log), ctx)
    case Cache | CorrectedCache =>
      var step := CacheFilter.OnActionExecuting(env.cache, ctx, now);
      (env.(cache := step.store, log := env.log + step.log), step.ctx)
  }

  /**
   One filter's post-hook. No post-hook changes the context; each touches only
   its own state and appends to the log.
   */
  function RunAfter(f: Filter, env: Env, ctx: Context, now: Time): (r: (Env, Context))
    ensures r.1 == ctx
    ensures env.log <= r.0.log
    ensures f.Logging? ==> r.0 == env.(log := env.log + LoggingFilter.OnActionExecuted(ctx, now))
    ensures f.Validation? ==> r.0 == env
    ensures f.Performance? ==>
      var step := PerformanceFilter.OnActionExecuted(env.stopwatch, ctx, now);
      r.0 == env.(stopwatch := step.stopwatch, log := env.log + step.log)
    ensures f.Cache? ==>
      var step := CacheFilter.OnActionExecuted(env.cache, ctx, now);
      r.0 == env.(cache := step.store, log := env.log + step.log)
    ensures f.CorrectedCache? ==>
      var step := CacheFilter.OnActionExecutedCorrected(env.cache, ctx, now);
      r.0 == env.(cache := step.store, log := env.log + step.log)
  {
    match f
    case Logging =>
      (env.(log := env.log + LoggingFilter.OnActionExecuted(ctx, now)), ctx)
    case Validation =>
      (env, ValidationFilter.OnActionExecuted(ctx))
    case Performance =>
      var step := PerformanceFilter.OnActionExecuted(env.stopwatch, ctx, now);
      (env.(stopwatch := step.stopwatch, log := env.log + step.log), ctx)
    case Cache =>
      var step := CacheFilter.OnActionExecuted(env.cache, ctx, now);
      (env.(cache := step.store, log := env.log + step.log), step.ctx)
    case CorrectedCache =>
      var step := CacheFilter.OnActionExecutedCorrected(env.cache, ctx, now);
      (env.(cache := step.store, log := env.log + step.log), step.ctx)
  }

  /**
   Runs the filters `fs` around the action. Either every pre-hook lets the call
   through and the action runs, or the pre-hook at position `passed`
   short-circuits with a result and the action never runs.
   */
  function Invoke(fs: seq<Filter>, env: Env, ctx: Context, handler: Handler, now: Time): (r: Invocation)
    ensures r.passed <= |fs|
    ensures r.handlerRan ==> r.passed == |fs| && r.finish == now + handler.duration
    ensures !r.handlerRan ==> r.passed < |fs| && r.finish == now && r.ctx.result.Some?
    ensures r.ctx.controller == ctx.controller && r.ctx.action == ctx.action && r.ctx.args == ctx.args
    ensures |fs| > 0 && RunBefore(fs[0], env, ctx, now).1.result.Some? ==>
      !r.handlerRan && r.passed == 0 && r.ctx == RunBefore(fs[0], env, ctx, now).1
  {
    if |fs| == 0 then
      Invocation(env, ApplyHandler(handler, ctx), true, 0, now + handler.duration, [Action])
    else
      var before := RunBefore(fs[0], env, ctx, now);
      if before.1.result.Some? then
        Invocation(before.0, before.1, false, 0, now, [Before(fs[0])])
      else
        var inner := Invoke(fs[1..], before.0, before.1, handler, now);
        var after := RunAfter(fs[0], inner.env, inner.ctx, inner.finish);
        Invocation(after.0, after.1, inner.handlerRan, inner.passed + 1, inner.finish,
                   [Before(fs[0])] + inner.trace + [After(fs[0])])
  }

  /**
   The pre-hooks alone, run in binding order with no action and no post-hook:
   the position of the first one that sets a result, or `None` when every one
   lets the call through.
   */
  function FirstStop(fs: seq<Filter>, env: Env, ctx: Context, now: Time): (r: Option<nat>)
    ensures r.Some? ==> r.value < |fs|
  {
    if |fs| == 0 then None
    else
      var before := RunBefore(fs[0], env, ctx, now);
      if before.1.result.Some? then Some(0)
      else
        match FirstStop(fs[1..], before.0, before.1, now)
        case None => None
        case Some(k) => Some(k + 1)
  }

  /**
   The action runs exactly when no pre-hook sets a result, and a short-circuited
   call stops at the first pre-hook that does: every later pre-hook's result is
   honoured as well as the first one's.
   */
  lemma {:induction false} InvokeStopsAtFirstStop(fs: seq<Filter>, env: Env, ctx: Context, handler: Handler, now: Time)
    ensures Invoke(fs, env, ctx, handler, now).handlerRan <==> FirstStop(fs, env, ctx, now).None?
    ensures !Invoke(fs, env, ctx, handler, now).handlerRan ==>
      Invoke(fs, env, ctx, handler, now).passed == FirstStop(fs, env, ctx, now).value
  {
    hide RunBefore, RunAfter, LoggingFilter.OnActionExecuting, LoggingFilter.OnActionExecuted, Text.FormatTimeMillis,
      PerformanceFilter.OnActionExecuting, PerformanceFilter.OnActionExecuted,
      ValidationFilter.OnActionExecuting, ValidationFilter.OnActionExecuted,
      CacheFilter.OnActionExecuting, CacheFilter.OnActionExecuted, CacheFilter.OnActionExecutedCorrected;
    if |fs| > 0 {
      var before := RunBefore(fs[0], env, ctx, now);
      if before.1.result.None? {
        InvokeStopsAtFirstStop(fs[1..], before.0, before.1, handler, now);
      }
    }
  }

  /**
   Hooks run last-in first-out: all pre-hooks, the action and all post-hooks
   in reverse; or, when the pre-hook at `passed` short-circuits, the pre-hooks
   up to it and the post-hooks of the ones before it, in reverse.
   */
  lemma {:induction false} InvokeTrace(fs: seq<Filter>, env: Env, ctx: Context, handler: Handler, now: Time)
    ensures var r := Invoke(fs, env, ctx, handler, now);
      && (r.handlerRan ==> r.trace == Befores(fs) + [Action] + Afters(Reverse(fs)))
      && (!r.handlerRan ==> r.trace == Befores(fs[..r.passed + 1]) + Afters(Reverse(fs[..r.passed])))
  {
    hide RunBefore, RunAfter, LoggingFilter.OnActionExecuting, LoggingFilter.OnActionExecuted, Text.FormatTimeMillis,
      PerformanceFilter.OnActionExecuting, PerformanceFilter.OnActionExecuted,
      ValidationFilter.OnActionExecuting, ValidationFilter.OnActionExecuted,
      CacheFilter.OnActionExecuting, CacheFilter.OnActionExecuted, CacheFilter.OnActionExecutedCorrected;
    var r := Invoke(fs, env, ctx, handler, now);
    if |fs| == 0 {
      assert Befores(fs) == [] && Afters(Reverse(fs)) == [];
    } else {
      var before := RunBefore(fs[0], env, ctx, now);
      if before.1.result.None? {
        var inner := Invoke(fs[1..], before.0, before.1, handler, now);
        assert r.trace == [Before(fs[0])] + inner.trace + [After(fs[0])];
        assert r.passed == inner.passed + 1 && r.handlerRan == inner.handlerRan;
        InvokeTrace(fs[1..], before.0, before.1, handler, now);
        TraceStep(fs, inner.passed, inner.handlerRan, inner.trace);
      } else {
        assert r.trace == [Before(fs[0])] && r.passed == 0;
        StoppedTrace(fs);
      }
    }
  }

  /**
   A call that reaches the action ends with exactly what the action left (no
   pre-hook that lets the call through and no post-hook alters the context); a
   short-circuited call keeps the exception slot it started with.
   */
  lemma {:induction false} InvokeContext(fs: seq<Filter>, env: Env, ctx: Context, handler: Handler, now: Time)
    ensures var r := Invoke(fs, env, ctx, handler, now);
      && (r.handlerRan && ctx.result.None? ==> r.ctx == ApplyHandler(handler, ctx))
      && (!r.handlerRan ==> r.ctx.exception == ctx.exception)
  {
    hide LoggingFilter.OnActionExecuting, LoggingFilter.OnActionExecuted, Text.FormatTimeMillis,
      PerformanceFilter.OnActionExecuting, PerformanceFilter.OnActionExecuted,
      ValidationFilter.OnActionExecuting, ValidationFilter.OnActionExecuted,
      CacheFilter.OnActionExecuting, CacheFilter.OnActionExecuted, CacheFilter.OnActionExecutedCorrected;
    if |fs| > 0 {
      var before := RunBefore(fs[0], env, ctx, now);
      if before.1.result.None? {
        InvokeContext(fs[1..], before.0, before.1, handler, now);
      }
    }
  }

  /**
   The same call made once at each clock reading in `times`, every call seeing
   the state the previous one left behind.
   */
  function Session(fs: seq<Filter>, env: Env, ctx: Context, handler: Handler, times: seq<Time>): (rs: seq<Invocation>)
    ensures |rs| == |times|
    decreases |times|
  {
    if |times| == 0 then []
    else
      var first := Invoke(fs, env, ctx, handler, times[0]);
      [first] + Session(fs, first.env, ctx, handler, times[1..])
  }

  /** Each call of a session starts from the state the previous call left behind. */
  lemma SessionStep(fs: seq<Filter>, env: Env, ctx: Context, handler: Handler, times: seq<Time>)
    requires |times| > 0
    ensures var rs := Session(fs, env, ctx, handler, times);
      var first := Invoke(fs, env, ctx, handler, times[0]);
      && rs[0] == first
      && rs[1..] == Session(fs, first.env, ctx, handler, times[1..])
  {
    hide Invoke;
  }

  /** With no filters left, the action runs. */
  lemma InvokeNil(env: Env, ctx: Context, handler: Handler, now: Time)
    ensures Invoke([], env, ctx, handler, now)
         == Invocation(env, ApplyHandler(handler, ctx), true, 0, now + handler.duration, [Action])
  {
  }

  /**
   One step of the runner: the first filter's pre-hook either short-circuits,
   or the rest of the run is wrapped in the first filter's post-hook.
   */
  lemma InvokeCons(f: Filter, rest: seq<Filter>, env: Env, ctx: Context, handler: Handler, now: Time)
    ensures var b := RunBefore(f, env, ctx, now);
      var r := Invoke([f] + rest, env, ctx, handler, now);
      && (b.1.result.Some? ==> !r.handlerRan && r.env == b.0 && r.ctx == b.1 && r.trace == [Before(f)])
      && (b.1.result.None? ==>
            var inner := Invoke(rest, b.0, b.1, handler, now);
            var a := RunAfter(f, inner.env, inner.ctx, inner.finish);
            && r.handlerRan == inner.handlerRan
            && r.env == a.0
            && r.ctx == a.1
            && r.finish == inner.finish
            && r.trace == [Before(f)] + inner.trace + [After(f)])
  {
    hide RunBefore, RunAfter, LoggingFilter.OnActionExecuting, LoggingFilter.OnActionExecuted, Text.FormatTimeMillis,
      PerformanceFilter.OnActionExecuting, PerformanceFilter.OnActionExecuted,
      ValidationFilter.OnActionExecuting, ValidationFilter.OnActionExecuted,
      CacheFilter.OnActionExecuting, CacheFilter.OnActionExecuted, CacheFilter.OnActionExecutedCorrected;
    assert ([f] + rest)[0] == f && ([f] + rest)[1..] == rest;
  }

  /**
   Logging and Performance never set a result, so a call that starts without
   one and meets only those filters always reaches the action.
   */
  lemma {:induction false} OnlyObserversNeverStopTheCall(fs: seq<Filter>, env: Env, ctx: Context, handler: Handler, now: Time)
    requires ctx.result.None?
    requires forall i :: 0 <= i < |fs| ==> fs[i].Logging? || fs[i].Performance?
    ensures Invoke(fs, env, ctx, handler, now).handlerRan
  {
    if |fs| > 0 {
      var before := RunBefore(fs[0], env, ctx, now);
      OnlyObserversNeverStopTheCall(fs[1..], before.0, before.1, handler, now);
    }
  }

  /** Filters only ever append to the log: what was written before the call stays, in order. */
  lemma {:induction false} InvokeAppendsToLog(fs: seq<Filter>, env: Env, ctx: Context, handler: Handler, now: Time)
    ensures env.log <= Invoke(fs, env, ctx, handler, now).env.log
  {
    hide LoggingFilter.OnActionExecuting, LoggingFilter.OnActionExecuted, Text.FormatTimeMillis,
      PerformanceFilter.OnActionExecuting, PerformanceFilter.OnActionExecuted,
      ValidationFilter.OnActionExecuting, ValidationFilter.OnActionExecuted,
      CacheFilter.OnActionExecuting, CacheFilter.OnActionExecuted, CacheFilter.OnActionExecutedCorrected;
    if |fs| > 0 {
      var before := RunBefore(fs[0], env, ctx, now);
      if before.1.result.None? {
        InvokeAppendsToLog(fs[1..], before.0, before.1, handler, now);
      }
    }
  }

  /** A call stopped by the first pre-hook ran that pre-hook alone. */
  lemma StoppedTrace(fs: seq<Filter>)
    requires |fs| >= 1
    ensures Befores(fs[..1]) + Afters(Reverse(fs[..0])) == [Before(fs[0])]
  {
    assert Befores(fs[..1]) == [Before(fs[0])];
    assert Afters(Reverse(fs[..0])) == [];
  }

  /** Wrapping an inner run of `fs[1..]` in the first filter's hooks gives the run of `fs`. */
  lemma TraceStep(fs: seq<Filter>, passed: nat, ran: bool, inner: seq<Hook>)
    requires |fs| >= 1 && passed <= |fs| - 1
    requires ran ==> passed == |fs| - 1 && inner == Befores(fs[1..]) + [Action] + Afters(Reverse(fs[1..]))
    requires !ran ==>
      && passed < |fs| - 1
      && inner == Befores(fs[1..][..passed + 1]) + Afters(Reverse(fs[1..][..passed]))
    ensures ran ==> [Before(fs[0])] + inner + [After(fs[0])] == Befores(fs) + [Action] + Afters(Reverse(fs))
    ensures !ran ==>
      [Before(fs[0])] + inner + [After(fs[0])] == Befores(fs[..passed + 2]) + Afters(Reverse(fs[..passed + 1]))
  {
    var head := [Before(fs[0])];
    if ran {
      assert head + Befores(fs[1..]) == Befores(fs);
      assert Afters(Reverse(fs[1..])) + [After(fs[0])] == Afters(Reverse(fs));
    } else {
      assert fs[1..][..passed + 1] == fs[1..passed + 2];
      assert fs[1..][..passed] == fs[1..passed + 1];
      assert head + Befores(fs[1..passed + 2]) == Befores(fs[..passed + 2]);
      assert Afters(Reverse(fs[1..passed + 1])) + [After(fs[0])] == Afters(Reverse(fs[..passed + 1]));
    }
  }
}

=== FILE: text.dfy ===
/**
 Text helpers the filters rely on: `string.Join`, the decimal rendering that
 C# string interpolation applies to integers, the `HH:mm:ss` / `HH:mm:ss.fff`
 clock formats and `char.IsWhiteSpace`.
 */
module Text {

  /** A C# `int`. */
  type Int32 = x: int | -0x8000_0000 <= x < 0x8000_0000

  predicate IsDigit(c: char) {
    '0' <= c <= '9'
  }

  predicate AllDigits(s: string) {
    forall i :: 0 <= i < |s| ==> IsDigit(s[i])
  }

  function DigitChar(d: nat): (c: char)
    requires d < 10
    ensures IsDigit(c)
    ensures c as int - '0' as int == d
  {
    ('0' as int + d) as char
  }

  /** Reference reading of a digit string: the number it denotes in base 10. */
  function DigitsValue(s: string): nat
    requires AllDigits(s)
  {
    if |s| == 0 then 0
    else DigitsValue(s[..|s| - 1]) * 10 + (s[|s| - 1] as int - '0' as int)
  }

  /** Shortest decimal rendering of `n`, as `n.ToString()` produces it. */
  function NatToString(n: nat): (s: string)
    ensures |s| >= 1
    ensures AllDigits(s)
    ensures s[0] == '0' ==> n == 0
  {
    if n < 10 then [DigitChar(n)] else NatToString(n / 10) + [DigitChar(n % 10)]
  }

  /** An optional '-' followed by at least one digit. */
  predicate IsIntText(s: string) {
    && |s| >= 1
    && (s[0] == '-' ==> |s| >= 2 && AllDigits(s[1..]))
    && (s[0] != '-' ==> AllDigits(s))
  }

  /** Decimal rendering of an integer with a leading '-' when negative. */
  function IntToString(i: int): (s: string)
    ensures IsIntText(s)
    ensures i < 0 <==> s[0] == '-'
  {
    if i < 0 then
      var s := "-" + NatToString(-i);
      assert s[1..] == NatToString(-i);
      s
    else NatToString(i)
  }

  /** Reference reading of a rendered integer. */
  function ParseInt(s: string): int
    requires IsIntText(s)
  {
    if s[0] == '-' then -(DigitsValue(s[1..]) as int) else DigitsValue(s)
  }

  /** Reading back a rendered natural number gives the number. */
  lemma {:induction false} NatToStringRoundTrip(n: nat)
    ensures DigitsValue(NatToString(n)) == n
  {
    if n >= 10 {
      var prefix := NatToString(n / 10);
      var s := prefix + [DigitChar(n % 10)];
      assert s[..|s| - 1] == prefix;
      NatToStringRoundTrip(n / 10);
    }
  }

  /** Reading back a rendered integer gives the integer. */
  lemma IntToStringRoundTrip(i: int)
    ensures ParseInt(IntToString(i)) == i
  {
    if i < 0 {
      assert IntToString(i)[1..] == NatToString(-i);
      NatToStringRoundTrip(-i);
    } else {
      NatToStringRoundTrip(i);
    }
  }

  /** An integer rendered between a prefix and a suffix reads back from between them. */
  lemma ReadBetween(prefix: string, i: int, suffix: string)
    ensures var text := prefix + IntToString(i) + suffix;
      && |text| > |prefix| + |suffix|
      && text[..|prefix|] == prefix
      && text[|text| - |suffix|..] == suffix
      && IsIntText(text[|prefix|..|text| - |suffix|])
      && ParseInt(text[|prefix|..|text| - |suffix|]) == i
  {
    var text := prefix + IntToString(i) + suffix;
    assert text[|prefix|..|text| - |suffix|] == IntToString(i);
    assert text[..|prefix|] == prefix;
    assert text[|text| - |suffix|..] == suffix;
    IntToStringRoundTrip(i);
  }

  /** Distinct integers render differently. */
  lemma IntToStringInjective(i: int, j: int)
    requires IntToString(i) == IntToString(j)
    ensures i == j
  {
    IntToStringRoundTrip(i);
    IntToStringRoundTrip(j);
  }

  /** `n` in exactly `width` digits, zero-padded on the left (the `HH`, `mm`, `fff` formats). */
  function Padded(n: nat, width: nat): (s: string)
    ensures |s| == width
    ensures AllDigits(s)
    ensures n < Pow10(width) ==> DigitsValue(s) == n
  {
    if width == 0 then ""
    else
      var s := Padded(n / 10, width - 1) + [DigitChar(n % 10)];
      assert s[..|s| - 1] == Padded(n / 10, width - 1);
      s
  }

  function Pow10(k: nat): (p: nat)
    ensures p >= 1
  {
    if k == 0 then 1 else 10 * Pow10(k - 1)
  }

  const MillisPerSecond: nat := 1000
  const MillisPerMinute: nat := 60 * MillisPerSecond
  const MillisPerHour: nat := 60 * MillisPerMinute

  function Hours(t: nat): nat { (t / MillisPerHour) % 24 }
  function Minutes(t: nat): nat { (t / MillisPerMinute) % 60 }
  function Seconds(t: nat): nat { (t / MillisPerSecond) % 60 }
  function Millis(t: nat): nat { t % MillisPerSecond }

  /** The `HH:mm:ss` rendering of a clock reading `t` (milliseconds since a local midnight). */
  function FormatTime(t: nat): (s: string)
    ensures |s| == 8
  {
    Padded(Hours(t), 2) + ":" + Padded(Minutes(t), 2) + ":" + Padded(Seconds(t), 2)
  }

  /** The `HH:mm:ss.fff` rendering of a clock reading `t`. */
  function FormatTimeMillis(t: nat): (s: string)
    ensures |s| == 12
  {
    FormatTime(t) + "." + Padded(Millis(t), 3)
  }

  /** Hours, minutes and seconds read back from their two-digit fields. */
  lemma FormatTimeReadsBack(t: nat)
    ensures var s := FormatTime(t);
      && s[2] == ':' && s[5] == ':'
      && AllDigits(s[0..2]) && DigitsValue(s[0..2]) == Hours(t)
      && AllDigits(s[3..5]) && DigitsValue(s[3..5]) == Minutes(t)
      && AllDigits(s[6..8]) && DigitsValue(s[6..8]) == Seconds(t)
  {
    var s := FormatTime(t);
    assert s[0..2] == Padded(Hours(t), 2);
    assert s[3..5] == Padded(Minutes(t), 2);
    assert s[6..8] == Padded(Seconds(t), 2);
  }

  /** The clock with milliseconds extends the plain clock by '.' and the milliseconds, read back from three digits. */
  lemma FormatTimeMillisReadsBack(t: nat)
    ensures var s := FormatTimeMillis(t);
      && s[..8] == FormatTime(t) && s[8] == '.'
      && AllDigits(s[9..]) && DigitsValue(s[9..]) == Millis(t)
  {
    var s := FormatTimeMillis(t);
    assert s[..8] == FormatTime(t);
    assert s[9..] == Padded(Millis(t), 3);
  }

  /** `string.Join(sep, parts)`: the parts in order with `sep` between neighbours. */
  function Join(sep: string, parts: seq<string>): string
  {
    if |parts| == 0 then ""
    else if |parts| == 1 then parts[0]
    else parts[0] + sep + Join(sep, parts[1..])
  }

  /** Joining grows at the end in iteration order: the last part comes last, after one separator. */
  lemma {:induction false} JoinSnoc(sep: string, parts: seq<string>, last: string)
    requires |parts| >= 1
    ensures Join(sep, parts + [last]) == Join(sep, parts) + sep + last
  {
    var all := parts + [last];
    if |parts| == 1 {
      assert all[1..] == [last];
    } else {
      assert all[1..] == parts[1..] + [last];
      JoinSnoc(sep, parts[1..], last);
    }
  }

  /**
   The characters `char.IsWhiteSpace` accepts: the Unicode space, line and
   paragraph separators plus the control characters U+0009..U+000D and U+0085.
   */
  predicate IsWhiteSpace(c: char) {
    || ('\U{0009}' <= c <= '\U{000D}')
    || c == ' '
    || c == '\U{0085}'
    || c == '\U{00A0}'
    || c == '\U{1680}'
    || ('\U{2000}' <= c <= '\U{200A}')
    || c == '\U{2028}'
    || c == '\U{2029}'
    || c == '\U{202F}'
    || c == '\U{205F}'
    || c == '\U{3000}'
  }

  /** `string.IsNullOrWhiteSpace` on a non-null string: it is empty or all white space. */
  function IsBlank(s: string): (r: bool)
    ensures r <==> forall i :: 0 <= i < |s| ==> IsWhiteSpace(s[i])
  {
    if |s| == 0 then true else IsWhiteSpace(s[0]) && IsBlank(s[1..])
  }
}

=== FILE: user_controller.dfy ===
/**
 The filter bindings of `UserController` and what they add up to. The
 controller-wide Logging filter runs outermost, then the action's own filters
 in the order they are declared.
 */
module UserController {
  import opened Optional
  import opened Mvc
  import CacheFilter
  import ValidationFilter
  import PerformanceFilter
  import LoggingFilter
  import Text
  import opened Pipeline

  /** `GetUsers`: Logging, Cache, Performance. */
  const GetUsersFilters: seq<Filter> := [Logging, Cache, Performance]

  /** `GetUsers` with the cache filter's post-hook key corrected. */
  const CorrectedGetUsersFilters: seq<Filter> := [Logging, CorrectedCache, Performance]

  /** `GetUser`, `CreateUser`, `UpdateUser` and `DeleteUser`: Logging, Validation, Performance. */
  const ValidatedFilters: seq<Filter> := [Logging, Validation, Performance]

  /** `SlowOperation`: Logging, Performance. */
  const SlowOperationFilters: seq<Filter> := [Logging, Performance]

  /** A context as the framework hands it to the first filter: no result, no exception. */
  predicate Fresh(ctx: Context) {
    ctx.result.None? && ctx.exception.None?
  }

  function CacheKey(ctx: Context): string {
    CacheFilter.ExecutingKey(ctx.controller, ctx.action, ctx.args)
  }

  /**
   An argument that breaks a rule stops a validated action before it runs: the
   call ends with the BadRequest carrying every message, Performance never
   starts, and only Logging's post-hook runs.
   */
  lemma InvalidArgumentsRejected(env: Env, ctx: Context, handler: Handler, now: Time)
    requires Fresh(ctx)
    requires exists i :: 0 <= i < |ctx.args| && ValidationFilter.Violates(ctx.args[i])
    ensures var r := Invoke(ValidatedFilters, env, ctx, handler, now);
      && !r.handlerRan
      && r.ctx.result == Some(BadRequestObject(ValidationFilter.FailureMessage, ValidationFilter.Errors(ctx.args)))
      && r.trace == [Before(Logging), Before(Validation), After(Logging)]
      && r.env.cache == env.cache
      && r.env.stopwatch == env.stopwatch
  {
    hide Invoke, RunBefore, RunAfter,
      LoggingFilter.OnActionExecuting, LoggingFilter.OnActionExecuted, Text.FormatTimeMillis,
      PerformanceFilter.OnActionExecuting, PerformanceFilter.OnActionExecuted,
      ValidationFilter.OnActionExecuting, ValidationFilter.OnActionExecuted,
      CacheFilter.OnActionExecuting, CacheFilter.OnActionExecuted, CacheFilter.OnActionExecutedCorrected,
      CacheFilter.ExecutingKey;
    assert ValidatedFilters == [Logging] + [Validation, Performance];
    assert [Validation, Performance] == [Validation] + [Performance];
    var b0 := RunBefore(Logging, env, ctx, now);
    InvokeCons(Logging, [Validation, Performance], env, ctx, handler, now);
    InvokeCons(Validation, [Performance], b0.0, ctx, handler, now);
  }

  /** Arguments that break no rule reach the action, which decides the result; both filters' state is fresh. */
  lemma ValidArgumentsReachAction(env: Env, ctx: Context, handler: Handler, now: Time)
    requires Fresh(ctx)
    requires forall i :: 0 <= i < |ctx.args| ==> !ValidationFilter.Violates(ctx.args[i])
    ensures var r := Invoke(ValidatedFilters, env, ctx, handler, now);
      && r.handlerRan
      && r.ctx == ApplyHandler(handler, ctx)
      && r.finish == now + handler.duration
  {
    hide Invoke, RunBefore, RunAfter,
      LoggingFilter.OnActionExecuting, LoggingFilter.OnActionExecuted, Text.FormatTimeMillis,
      PerformanceFilter.OnActionExecuting, PerformanceFilter.OnActionExecuted,
      ValidationFilter.OnActionExecuting, ValidationFilter.OnActionExecuted,
      CacheFilter.OnActionExecuting, CacheFilter.OnActionExecuted, CacheFilter.OnActionExecutedCorrected,
      CacheFilter.ExecutingKey;
    assert ValidatedFilters == [Logging] + [Validation, Performance];
    assert [Validation, Performance] == [Validation] + [Performance];
    assert [Performance] == [Performance] + [];
    var b0 := RunBefore(Logging, env, ctx, now);
    var b1 := RunBefore(Validation, b0.0, ctx, now);
    var b2 := RunBefore(Performance, b1.0, ctx, now);
    InvokeCons(Logging, [Validation, Performance], env, ctx, handler, now);
    InvokeCons(Validation, [Performance], b0.0, ctx, handler, now);
    InvokeCons(Performance, [], b1.0, ctx, handler, now);
    InvokeNil(b2.0, ctx, handler, now);
  }

  /**
   As written, `GetUsers` is never answered from the cache: when the key its
   pre-hook reads is absent, the action runs and the key is still absent
   afterwards (the post-hook wrote a different key).
   */
  lemma GetUsersMissesCache(env: Env, ctx: Context, handler: Handler, now: Time)
    requires Fresh(ctx)
    requires CacheKey(ctx) !in env.cache
    ensures var r := Invoke(GetUsersFilters, env, ctx, handler, now);
      r.handlerRan && CacheKey(ctx) !in r.env.cache
  {
    hide Invoke, RunBefore, RunAfter,
      LoggingFilter.OnActionExecuting, LoggingFilter.OnActionExecuted, Text.FormatTimeMillis,
      PerformanceFilter.OnActionExecuting, PerformanceFilter.OnActionExecuted,
      ValidationFilter.OnActionExecuting, ValidationFilter.OnActionExecuted,
      CacheFilter.OnActionExecuting, CacheFilter.OnActionExecuted, CacheFilter.OnActionExecutedCorrected,
      CacheFilter.ExecutingKey;
    assert GetUsersFilters == [Logging] + [Cache, Performance];
    assert [Cache, Performance] == [Cache] + [Performance];
    assert [Performance] == [Performance] + [];
    var b0 := RunBefore(Logging, env, ctx, now);
    var b1 := RunBefore(Cache, b0.0, ctx, now);
    var b2 := RunBefore(Performance, b1.0, ctx, now);
    InvokeCons(Logging, [Cache, Performance], env, ctx, handler, now);
    InvokeCons(Cache, [Performance], b0.0, ctx, handler, now);
    InvokeCons(Performance, [], b1.0, ctx, handler, now);
    InvokeNil(b2.0, ctx, handler, now);
    var act := Invoke([], b2.0, ctx, handler, now);
    var a2 := RunAfter(Performance, act.env, act.ctx, act.finish);
    var a1 := RunAfter(Cache, a2.0, a2.1, act.finish);
    assert CacheKey(ctx) != CacheFilter.ExecutedKey(act.ctx.controller, act.ctx.action);
    assert CacheKey(ctx) !in a1.0.cache;
  }

  /** However many times `GetUsers` is called, at whatever times, the action runs every time. */
  lemma {:induction false} GetUsersNeverServedFromCache(env: Env, ctx: Context, handler: Handler, times: seq<Time>)
    requires Fresh(ctx)
    requires CacheKey(ctx) !in env.cache
    ensures var rs := Session(GetUsersFilters, env, ctx, handler, times);
      forall i :: 0 <= i < |rs| ==> rs[i].handlerRan
    decreases |times|
  {
    hide Invoke, Session, RunBefore, RunAfter,
      LoggingFilter.OnActionExecuting, LoggingFilter.OnActionExecuted, Text.FormatTimeMillis,
      PerformanceFilter.OnActionExecuting, PerformanceFilter.OnActionExecuted,
      ValidationFilter.OnActionExecuting, ValidationFilter.OnActionExecuted,
      CacheFilter.OnActionExecuting, CacheFilter.OnActionExecuted, CacheFilter.OnActionExecutedCorrected;
    if |times| > 0 {
      var first := Invoke(GetUsersFilters, env, ctx, handler, times[0]);
      GetUsersMissesCache(env, ctx, handler, times[0]);
      GetUsersNeverServedFromCache(first.env, ctx, handler, times[1..]);
      SessionStep(GetUsersFilters, env, ctx, handler, times);
      var rs := Session(GetUsersFilters, env, ctx, handler, times);
      assert forall i :: 1 <= i < |rs| ==> rs[i] == rs[1..][i - 1];
    }
  }

  /**
   Corrected `GetUsers` with nothing fresh under its key: the action runs and,
   when it returns an `OkObjectResult`, its value is stored until five minutes
   after the action finished.
   */
  lemma CorrectedGetUsersMiss(env: Env, ctx: Context, v: Value, duration: nat, now: Time)
    requires Fresh(ctx)
    requires CacheKey(ctx) in env.cache ==> env.cache[CacheKey(ctx)].expiry <= now
    ensures var r := Invoke(CorrectedGetUsersFilters, env, ctx, Returns(OkObject(v), duration), now);
      && r.handlerRan
      && r.ctx.result == Some(OkObject(v))
      && CacheKey(ctx) in r.env.cache
      && r.env.cache[CacheKey(ctx)] == CacheFilter.Entry(v, now + duration + CacheFilter.Ttl)
  {
    hide Invoke, RunBefore, RunAfter,
      LoggingFilter.OnActionExecuting, LoggingFilter.OnActionExecuted, Text.FormatTimeMillis,
      PerformanceFilter.OnActionExecuting, PerformanceFilter.OnActionExecuted,
      ValidationFilter.OnActionExecuting, ValidationFilter.OnActionExecuted,
      CacheFilter.OnActionExecuting, CacheFilter.OnActionExecuted, CacheFilter.OnActionExecutedCorrected,
      CacheFilter.ExecutingKey;
    var handler := Returns(OkObject(v), duration);
    assert CorrectedGetUsersFilters == [Logging] + [CorrectedCache, Performance];
    assert [CorrectedCache, Performance] == [CorrectedCache] + [Performance];
    assert [Performance] == [Performance] + [];
    var b0 := RunBefore(Logging, env, ctx, now);
    var b1 := RunBefore(CorrectedCache, b0.0, ctx, now);
    var b2 := RunBefore(Performance, b1.0, ctx, now);
    InvokeCons(Logging, [CorrectedCache, Performance], env, ctx, handler, now);
    InvokeCons(CorrectedCache, [Performance], b0.0, ctx, handler, now);
    InvokeCons(Performance, [], b1.0, ctx, handler, now);
    InvokeNil(b2.0, ctx, handler, now);
    var act := Invoke([], b2.0, ctx, handler, now);
    assert act.ctx == ctx.(result := Some(OkObject(v)));
    var a2 := RunAfter(Performance, act.env, act.ctx, act.finish);
    var a1 := RunAfter(CorrectedCache, a2.0, a2.1, act.finish);
    assert a1.0.cache[CacheKey(ctx)] == CacheFilter.Entry(v, now + duration + CacheFilter.Ttl);
  }

  /**
   Corrected `GetUsers` with a fresh entry under its key: the action does not
   run, the call returns the stored value and the store is left as it was.
   */
  lemma CorrectedGetUsersHit(env: Env, ctx: Context, handler: Handler, now: Time)
    requires Fresh(ctx)
    requires CacheKey(ctx) in env.cache && now < env.cache[CacheKey(ctx)].expiry
    ensures var r := Invoke(CorrectedGetUsersFilters, env, ctx, handler, now);
      && !r.handlerRan
      && r.ctx.result == Some(OkObject(env.cache[CacheKey(ctx)].value))
      && r.env.cache == env.cache
  {
    hide Invoke, RunBefore, RunAfter,
      LoggingFilter.OnActionExecuting, LoggingFilter.OnActionExecuted, Text.FormatTimeMillis,
      PerformanceFilter.OnActionExecuting, PerformanceFilter.OnActionExecuted,
      ValidationFilter.OnActionExecuting, ValidationFilter.OnActionExecuted,
      CacheFilter.OnActionExecuting, CacheFilter.OnActionExecuted, CacheFilter.OnActionExecutedCorrected,
      CacheFilter.ExecutingKey;
    assert CorrectedGetUsersFilters == [Logging] + [CorrectedCache, Performance];
    assert [CorrectedCache, Performance] == [CorrectedCache] + [Performance];
    var b0 := RunBefore(Logging, env, ctx, now);
    InvokeCons(Logging, [CorrectedCache, Performance], env, ctx, handler, now);
    InvokeCons(CorrectedCache, [Performance], b0.0, ctx, handler, now);
  }

  /**
   The cold / warm / expired sequence: the first call runs the action; a call
   before five minutes have passed since it finished is answered from the cache
   without running it; a call 301 seconds after that runs the action again.
   */
  lemma CorrectedGetUsersScenario(env: Env, ctx: Context, v: Value, duration: nat, t1: Time, t2: Time)
    requires Fresh(ctx)
    requires CacheKey(ctx) !in env.cache
    requires t1 + duration <= t2 < t1 + duration + CacheFilter.Ttl
    ensures var handler := Returns(OkObject(v), duration);
      var rs := Session(CorrectedGetUsersFilters, env, ctx, handler, [t1, t2, t2 + 301_000]);
      && rs[0].handlerRan
      && !rs[1].handlerRan && rs[1].ctx.result == Some(OkObject(v))
      && rs[2].handlerRan
  {
    hide Invoke, Session, CacheKey, RunBefore, RunAfter,
      LoggingFilter.OnActionExecuting, LoggingFilter.OnActionExecuted, Text.FormatTimeMillis,
      PerformanceFilter.OnActionExecuting, PerformanceFilter.OnActionExecuted,
      ValidationFilter.OnActionExecuting, ValidationFilter.OnActionExecuted,
      CacheFilter.OnActionExecuting, CacheFilter.OnActionExecuted, CacheFilter.OnActionExecutedCorrected;
    var handler := Returns(OkObject(v), duration);
    var fs := CorrectedGetUsersFilters;
    var times := [t1, t2, t2 + 301_000];
    var r1 := Invoke(fs, env, ctx, handler, t1);
    CorrectedGetUsersMiss(env, ctx, v, duration, t1);
    var r2 := Invoke(fs, r1.env, ctx, handler, t2);
    CorrectedGetUsersHit(r1.env, ctx, handler, t2);
    var r3 := Invoke(fs, r2.env, ctx, handler, t2 + 301_000);
    CorrectedGetUsersMiss(r2.env, ctx, v, duration, t2 + 301_000);
    assert times[1..] == [t2, t2 + 301_000] && times[1..][1..] == [t2 + 301_000];
    SessionStep(fs, env, ctx, handler, times);
    SessionStep(fs, r1.env, ctx, handler, times[1..]);
    SessionStep(fs, r2.env, ctx, handler, times[1..][1..]);
    var rs := Session(fs, env, ctx, handler, times);
    assert rs[1] == rs[1..][0] && rs[2] == rs[1..][1..][0];
  }

  predicate HasWarning(log: seq<LogEntry>) {
    exists k :: 0 <= k < |log| && log[k].level == Warning
  }

  lemma HasWarningAppend(a: seq<LogEntry>, b: seq<LogEntry>)
    ensures HasWarning(a + b) <==> HasWarning(a) || HasWarning(b)
  {
    if HasWarning(a + b) {
      var k :| 0 <= k < |a + b| && (a + b)[k].level == Warning;
      if k >= |a| {
        assert b[k - |a|].level == Warning;
      } else {
        assert a[k].level == Warning;
      }
    }
    if HasWarning(a) {
      var k :| 0 <= k < |a| && a[k].level == Warning;
      assert (a + b)[k] == a[k];
    }
    if HasWarning(b) {
      var k :| 0 <= k < |b| && b[k].level == Warning;
      assert (a + b)[|a| + k] == b[k];
    }
  }

  /**
   `SlowOperation` writes a warning exactly when the action took more than one
   second, whether it returned or threw.
   */
  lemma SlowOperationWarnsIffSlow(env: Env, ctx: Context, handler: Handler, now: Time)
    requires Fresh(ctx)
    requires !HasWarning(env.log)
    ensures var r := Invoke(SlowOperationFilters, env, ctx, handler, now);
      HasWarning(r.env.log) <==> handler.duration > 1000
  {
    hide Invoke, RunBefore, RunAfter,
      LoggingFilter.OnActionExecuting, LoggingFilter.OnActionExecuted, Text.FormatTimeMillis,
      PerformanceFilter.OnActionExecuting, PerformanceFilter.OnActionExecuted,
      ValidationFilter.OnActionExecuting, ValidationFilter.OnActionExecuted,
      CacheFilter.OnActionExecuting, CacheFilter.OnActionExecuted, CacheFilter.OnActionExecutedCorrected,
      CacheFilter.ExecutingKey;
    assert SlowOperationFilters == [Logging] + [Performance];
    assert [Performance] == [Performance] + [];
    var b0 := RunBefore(Logging, env, ctx, now);
    var b1 := RunBefore(Performance, b0.0, ctx, now);
    InvokeCons(Logging, [Performance], env, ctx, handler, now);
    InvokeCons(Performance, [], b0.0, ctx, handler, now);
    InvokeNil(b1.0, ctx, handler, now);
    var act := Invoke([], b1.0, ctx, handler, now);
    var a1 := RunAfter(Performance, act.env, act.ctx, act.finish);
    var a0 := RunAfter(Logging, a1.0, a1.1, act.finish);
    var logPre := LoggingFilter.OnActionExecuting(ctx, now);
    var startLog := PerformanceFilter.OnActionExecuting(env.stopwatch, ctx, now).log;
    var perf := PerformanceFilter.OnActionExecuted(b1.0.stopwatch, act.ctx, act.finish);
    var logPost := LoggingFilter.OnActionExecuted(act.ctx, act.finish);
    assert a0.0.log == env.log + logPre + startLog + perf.log + logPost;
    assert perf.elapsed == Some(handler.duration);
    assert !HasWarning(logPre) && !HasWarning(startLog) && !HasWarning(logPost);
    assert HasWarning(perf.log) <==> handler.duration > 1000 by {
      if handler.duration > 1000 {
        assert perf.log[1].level == Warning;
      }
    }
    HasWarningAppend(env.log, logPre);
    HasWarningAppend(env.log + logPre, startLog);
    HasWarningAppend(env.log + logPre + startLog, perf.log);
    HasWarningAppend(env.log + logPre + startLog + perf.log, logPost);
  }
}

=== FILE: validation_filter.dfy ===
/**
 ValidationActionFilter: the pre-hook walks the action arguments in order,
 collects one message for each negative `int` and each blank `string`, and
 short-circuits with a BadRequest carrying the whole list when it is non-empty.
 The post-hook does nothing.
 */
module ValidationFilter {
  import opened Optional
  import opened Mvc
  import Text

  const FailureMessage: string := "Błędy walidacji"

  /** A boxed `int` below zero. */
  predicate NegativeInt(v: Value) {
    v.IntValue? && v.i < 0
  }

  /** A non-null `string` that is empty or white space only; `null` is not a string. */
  predicate BlankString(v: Value) {
    v.StringValue? && forall k :: 0 <= k < |v.s| ==> Text.IsWhiteSpace(v.s[k])
  }

  predicate Violates(a: Arg) {
    NegativeInt(a.value) || BlankString(a.value)
  }

  function NegativeMessage(name: string): string {
    "Parametr " + name + " nie może być ujemny"
  }

  function BlankMessage(name: string): string {
    "Parametr " + name + " nie może być pusty"
  }

  /** The message one argument contributes, if any: an `int` check then a `string` check. */
  function Complaint(a: Arg): (m: Option<string>)
    ensures m.Some? <==> Violates(a)
    ensures NegativeInt(a.value) ==> m == Some(NegativeMessage(a.name))
    ensures BlankString(a.value) ==> m == Some(BlankMessage(a.name))
  {
    match a.value
    case IntValue(i) => if i < 0 then Some(NegativeMessage(a.name)) else None
    case StringValue(s) => if Text.IsBlank(s) then Some(BlankMessage(a.name)) else None
    case _ => None
  }

  function AsSeq(m: Option<string>): seq<string> {
    if m.Some? then [m.value] else []
  }

  /** The error list the loop builds, in argument order. */
  function Errors(args: Arguments): (errors: seq<string>)
    ensures |errors| <= |args|
  {
    if |args| == 0 then [] else AsSeq(Complaint(args[0])) + Errors(args[1..])
  }

  /** Messages keep the order of the arguments: the list over a concatenation is the concatenation of the lists. */
  lemma {:induction false} ErrorsAppend(a: Arguments, b: Arguments)
    ensures Errors(a + b) == Errors(a) + Errors(b)
  {
    if |a| > 0 {
      assert (a + b)[1..] == a[1..] + b;
      ErrorsAppend(a[1..], b);
    } else {
      assert a + b == b;
    }
  }

  /** The list is empty exactly when no argument violates a rule. */
  lemma {:induction false} ErrorsEmptyIff(args: Arguments)
    ensures Errors(args) == [] <==> forall i :: 0 <= i < |args| ==> !Violates(args[i])
  {
    if |args| > 0 {
      ErrorsEmptyIff(args[1..]);
      assert forall i :: 1 <= i < |args| ==> args[i] == args[1..][i - 1];
    }
  }

  /** Every message in the list is the complaint of some violating argument. */
  lemma {:induction false} ErrorsSound(args: Arguments, j: nat)
    requires j < |Errors(args)|
    ensures exists i :: 0 <= i < |args| && Violates(args[i]) && Complaint(args[i]) == Some(Errors(args)[j])
  {
    var head := AsSeq(Complaint(args[0]));
    if j < |head| {
      assert Errors(args)[j] == Complaint(args[0]).value;
    } else {
      assert Errors(args)[j] == Errors(args[1..])[j - |head|];
      ErrorsSound(args[1..], j - |head|);
      var i :| 0 <= i < |args[1..]| && Violates(args[1..][i]) && Complaint(args[1..][i]) == Some(Errors(args[1..])[j - |head|]);
      assert args[1..][i] == args[i + 1];
    }
  }

  /** Every violating argument contributes its message to the list. */
  lemma {:induction false} ErrorsComplete(args: Arguments, i: nat)
    requires i < |args| && Violates(args[i])
    ensures Complaint(args[i]).value in Errors(args)
  {
    if i > 0 {
      assert args[1..][i - 1] == args[i];
      ErrorsComplete(args[1..], i - 1);
    }
  }

  /** The `foreach` over the arguments, appending each message as it is found. */
  method CollectErrors(args: Arguments) returns (errors: seq<string>)
    ensures errors == Errors(args)
  {
    errors := [];
    var i := 0;
    while i < |args|
      invariant 0 <= i <= |args|
      invariant errors == Errors(args[..i])
    {
      var a := args[i];
      if a.value.IntValue? && a.value.i < 0 {
        errors := errors + [NegativeMessage(a.name)];
      }
      if a.value.StringValue? && Text.IsBlank(a.value.s) {
        errors := errors + [BlankMessage(a.name)];
      }
      assert Errors([a]) == AsSeq(Complaint(a));
      assert args[..i + 1] == args[..i] + [a];
      ErrorsAppend(args[..i], [a]);
      i := i + 1;
    }
    assert args[..|args|] == args;
  }

  /** The pre-hook (`OnActionExecuting`): BadRequest with every message, or nothing at all. */
  function OnActionExecuting(ctx: Context): (r: Context)
    ensures (exists i :: 0 <= i < |ctx.args| && Violates(ctx.args[i])) ==>
      r == ctx.(result := Some(BadRequestObject(FailureMessage, Errors(ctx.args))))
    ensures (forall i :: 0 <= i < |ctx.args| ==> !Violates(ctx.args[i])) ==> r == ctx
    ensures r.result != ctx.result ==> Errors(ctx.args) != []
  {
    if |ctx.args| == 0 then ctx
    else
      var errors := Errors(ctx.args);
      ErrorsEmptyIff(ctx.args);
      if |errors| > 0 then
        ctx.(result := Some(BadRequestObject(FailureMessage, errors)))
      else
        ctx
  }

  /** The post-hook (`OnActionExecuted`) does nothing. */
  function OnActionExecuted(ctx: Context): (r: Context)
    ensures r == ctx
  {
    ctx
  }

  /** The `{ id: -1, name: "" }` call is rejected with exactly two messages, one per field, in order. */
  lemma TwoViolationsTwoMessages(ctx: Context)
    requires ctx.args == [Arg("id", IntValue(-1)), Arg("name", StringValue(""))]
    ensures OnActionExecuting(ctx).result
         == Some(BadRequestObject(FailureMessage, [NegativeMessage("id"), BlankMessage("name")]))
  {
    var rest := ctx.args[1..];
    assert rest == [Arg("name", StringValue(""))];
    assert Complaint(ctx.args[0]) == Some(NegativeMessage("id"));
    assert Complaint(rest[0]) == Some(BlankMessage("name"));
    assert Errors(rest[1..]) == [];
    assert Errors(rest) == [BlankMessage("name")];
    assert Errors(ctx.args) == [NegativeMessage("id"), BlankMessage("name")];
  }
}
